=== FILE: README.md ===
# Sensor reconciliation engine of the Home Assistant Android companion app

This project models the core of `SensorReceiver` in Dafny. That core has two parts:

- **The trigger gate.** When a broadcast arrives, `onReceive` maps its action to the sensor that owns that
  device-state category: alarm, Bluetooth, charging, wifi, screen, doze, power save, phone state, audio or
  do-not-disturb. If the owning sensor's row is missing or disabled, nothing happens. Otherwise a
  reconciliation pass runs. Boot actions then add a location refresh. Charging actions add a second pass
  after 5 seconds.
- **The reconciliation pass.** `updateSensors` goes through the fixed provider list (`MANAGERS`) in order.
  For each provider it first asks the provider to refresh its readings, ignoring any exception. It then
  walks the provider's declared sensors:
  - it registers each sensor that is enabled, unregistered and has a non-blank type, and marks it
    registered when the call succeeds;
  - it collects every enabled and registered sensor into a batch.
  The batch is pushed only if it is non-empty. When the push fails, `registered` is cleared on every
  batched row.

The model has four modules:

- `SensorModel` (model.dfy): sensor rows, descriptors, registrations, the provider list, and the events a
  pass emits. Events are provider queries, `registerSensor` calls with their outcome, the push with its
  outcome, and the delay.
- `Reconciliation` (reconciliation.dfy): one pass as a pure function of the sensor table and of what the
  collaborators answer. It also holds the lemmas about a pass.
- `TriggerGate` (gate.dfy): the action → owning sensor → skip/proceed decision.
- `Receiver` (receiver.dfy): the imperative side.
  - `SensorDao` is a class whose `records` map is the sensor table.
  - `UpdateSensors`, `OnReceive` and the loops they use are methods that update that map in place.
  - Each method is proved equal to the matching function of `Reconciliation`.
  - Lemmas about a whole broadcast close the module.

The collaborators are inputs:

- Each provider's `requestSensorUpdate` is given as the rows it writes plus whether it threw.
- Whether the n-th `registerSensor` call of a pass returns normally or throws is an input. The code
  does not inspect what the call returns (SensorReceiver.kt:201). A call that returns normally therefore
  marks the row registered, even if the server answered `false`. "Accepted" in this model means
  "returned without throwing".
- The `updateSensors` push returns true or false. An exception counts as false.

## Model

| member | source | states |
|---|---|---|
| `SensorModel.ToRegistration` | app/src/main/java/io/homeassistant/companion/android/sensors/SensorReceiver.kt:198-209 | definition (no contract of its own): `toSensorRegistration()` copies the row's id, state, type, unit and attributes; the caller supplies the name (the descriptor's display name for a registration call, none for a batch entry) |
| `SensorModel.IsWhitespace` | app/src/main/java/io/homeassistant/companion/android/sensors/SensorReceiver.kt:197 | definition (no contract of its own): the characters Kotlin's `isBlank` treats as whitespace on the JVM |
| `SensorModel.IsBlank` | app/src/main/java/io/homeassistant/companion/android/sensors/SensorReceiver.kt:197 | definition (no contract of its own): Kotlin `isBlank`, a string that is empty or made only of whitespace |
| `SensorModel.NeedsRegistration` | app/src/main/java/io/homeassistant/companion/android/sensors/SensorReceiver.kt:197 | definition (no contract of its own): the registration guard, an enabled, unregistered row with a non-blank type |
| `SensorModel.Reportable` | app/src/main/java/io/homeassistant/companion/android/sensors/SensorReceiver.kt:208 | definition (no contract of its own): the batch guard, an enabled and registered row |
| `SensorModel.Absorb` | app/src/main/java/io/homeassistant/companion/android/sensors/SensorReceiver.kt:186-191 | a provider's refresh adds exactly the rows it writes, never changes `enabled` or `registered` of an existing row, creates rows unregistered, and leaves the rows it does not write alone |
| `Reconciliation.RegisterStep` | app/src/main/java/io/homeassistant/companion/android/sensors/SensorReceiver.kt:197-207 | definition (no contract of its own): a row that is enabled, unregistered and typed gets one `registerSensor` call with the descriptor's display name; a call that returns normally sets `registered`, one that throws leaves the row unregistered; either way the call is recorded and counted |
| `Reconciliation.BatchStep` | app/src/main/java/io/homeassistant/companion/android/sensors/SensorReceiver.kt:208-210 | definition (no contract of its own): an enabled and registered row joins the batch without a display name |
| `Reconciliation.ReconcileSensor` | app/src/main/java/io/homeassistant/companion/android/sensors/SensorReceiver.kt:193-210 | definition (no contract of its own): one iteration of the descriptor loop, the registration step and then the batch step |
| `Reconciliation.ReconcileAll` | app/src/main/java/io/homeassistant/companion/android/sensors/SensorReceiver.kt:192-211 | reconciling a provider's descriptors raises only `registered` flags (same ids, same data), makes no more `registerSensor` calls than there are descriptors, adds only registration events, only appends to the batch, and every entry it appends carries its record's current data |
| `Reconciliation.VisitAll` | app/src/main/java/io/homeassistant/companion/android/sensors/SensorReceiver.kt:186-212 | over the provider loop, the set of ids grows by exactly the providers' writes, no `enabled` value changes, and no `registered` flag is lowered |
| `Reconciliation.VisitProvider` | app/src/main/java/io/homeassistant/companion/android/sensors/SensorReceiver.kt:186-211 | definition (no contract of its own): one iteration of the provider loop, the refresh (its exception ignored) and then the descriptor loop over that provider's descriptors |
| `Reconciliation.Collect` | app/src/main/java/io/homeassistant/companion/android/sensors/SensorReceiver.kt:182-212 | definition (no contract of its own): the provider loop over the whole list, from an empty batch and an empty trace |
| `Reconciliation.Invalidate` | app/src/main/java/io/homeassistant/companion/android/sensors/SensorReceiver.kt:223-231 | failure recovery clears `registered` on exactly the batched rows that exist, changes nothing else, and creates no row |
| `Reconciliation.Publish` | app/src/main/java/io/homeassistant/companion/android/sensors/SensorReceiver.kt:214-232 | definition (no contract of its own): an empty batch is not pushed; a non-empty one is pushed once, and on failure `Invalidate` unregisters its rows; its lemmas are `PushOutcome` and `PublishFrame` |
| `Reconciliation.Pass` | app/src/main/java/io/homeassistant/companion/android/sensors/SensorReceiver.kt:179-233 | definition (no contract of its own): the provider loop followed by the push; every `Reconciliation` lemma below is about it |
| `Reconciliation.PassBatchComposition` | app/src/main/java/io/homeassistant/companion/android/sensors/SensorReceiver.kt:192-211 | a sensor's id is in the batch if and only if it is a descriptor whose row is enabled and registered after registration; batch order follows provider-then-descriptor order; no batch entry carries a display name |
| `Reconciliation.PassRegistrationDiscipline` | app/src/main/java/io/homeassistant/companion/android/sensors/SensorReceiver.kt:197-207 | `registerSensor` is called only for a descriptor whose row is enabled, has a non-blank type and was not registered when the pass began; the call carries a display name; after an accepted registration no further call is made for that id in the pass; what each call carries is stated by `PassRegistrationContents` |
| `Reconciliation.PassRegistrationContents` | app/src/main/java/io/homeassistant/companion/android/sensors/SensorReceiver.kt:186-207 | the events between one provider's query and the next provider's are `registerSensor` calls, each carrying the display name of one of that provider's descriptors and the id, state, type, unit and attributes of its row as that provider's refresh left it |
| `Reconciliation.PassRegistersNeedingSensors` | app/src/main/java/io/homeassistant/companion/android/sensors/SensorReceiver.kt:186-207 | conversely, every sensor a provider declares whose row, as that provider's refresh leaves it (the table after the earlier providers, then this provider's writes), is enabled, unregistered and typed gets a `registerSensor` call during the pass |
| `Reconciliation.RegisteredOnlyByAcceptedCall` | app/src/main/java/io/homeassistant/companion/android/sensors/SensorReceiver.kt:197-231 | a pass marks a row registered only through a `registerSensor` call for it that returned without throwing: every row registered when the pass ends that was absent or unregistered when it began has such a call in the pass; a call that throws leaves the row unregistered |
| `Reconciliation.AcceptedRegistrationsBatched` | app/src/main/java/io/homeassistant/companion/android/sensors/SensorReceiver.kt:197-210 | a sensor whose registration is accepted during a pass is in that pass's batch |
| `Reconciliation.PassBatchEntries` | app/src/main/java/io/homeassistant/companion/android/sensors/SensorReceiver.kt:186-210 | each batch entry a provider adds carries the id, state, type, unit and attributes of its row as that provider's refresh left it; an entry whose id no later provider writes also carries its row's data as it stands when the batch is pushed |
| `Reconciliation.PassQueriesEveryProvider` | app/src/main/java/io/homeassistant/companion/android/sensors/SensorReceiver.kt:186-191 | a pass queries every provider exactly once, in list order |
| `Reconciliation.ProviderExceptionsIgnored` | app/src/main/java/io/homeassistant/companion/android/sensors/SensorReceiver.kt:186-192 | whether providers throw does not change the pass at all (no part of the pass reads the exception, so this holds by construction; `PassQueriesEveryProvider` and `PassBatchComposition` hold for every provider outcome, exceptions included) |
| `Reconciliation.PushOutcome` | app/src/main/java/io/homeassistant/companion/android/sensors/SensorReceiver.kt:214-232 | an empty batch is not pushed and nothing is written after the loop; a non-empty batch is pushed once; an accepted push writes nothing; a failed push unregisters exactly the batched rows |
| `Reconciliation.FailedPushForcesReregistration` | app/src/main/java/io/homeassistant/companion/android/sensors/SensorReceiver.kt:222-231 | after a failed push no descriptor's row is both enabled and registered, so each one must register again before it is batched |
| `Reconciliation.PassFrame` | app/src/main/java/io/homeassistant/companion/android/sensors/SensorReceiver.kt:179-233 | a pass creates no row beyond the providers' writes, deletes none, and never changes `enabled` |
| `Reconciliation.DisabledPassIsQuiet` | app/src/main/java/io/homeassistant/companion/android/sensors/SensorReceiver.kt:179-233 | when every row is disabled and providers create no enabled row, a pass makes no registration call and no push; it changes the table only by the providers' own writes |
| `Reconciliation.AbsorbNothing` | app/src/main/java/io/homeassistant/companion/android/sensors/SensorReceiver.kt:186-191 | providers that write nothing leave the table unchanged (with the lemma above: a disabled pass leaves the table as it was) |
| `TriggerGate.IsCharging` | app/src/main/java/io/homeassistant/companion/android/sensors/SensorReceiver.kt:170 | definition (no contract of its own): the action is one of the four `chargingActions` of :56-61 |
| `TriggerGate.IsBoot` | app/src/main/java/io/homeassistant/companion/android/sensors/SensorReceiver.kt:165-167 | definition (no contract of its own): the action is the boot-completed action or one of the two quickboot actions |
| `TriggerGate.IsEnabled` | app/src/main/java/io/homeassistant/companion/android/sensors/SensorReceiver.kt:73-74 | definition (no contract of its own): `sensor?.enabled == true`, the owning sensor's row exists and is enabled; a missing row counts as disabled |
| `TriggerGate.Owner` | app/src/main/java/io/homeassistant/companion/android/sensors/SensorReceiver.kt:70-161 | definition (no contract of its own): the chain of action tests mapping a broadcast action to the sensor that gates it; `OwnerIsTableLookup` states it |
| `TriggerGate.Decide` | app/src/main/java/io/homeassistant/companion/android/sensors/SensorReceiver.kt:70-176 | definition (no contract of its own): skip when the owning sensor's row is missing or disabled, otherwise proceed, with the location refresh for boot actions and the second pass for charging actions; `DisabledOwnerSkipsEverything` and `OpenGateRunsPasses` state it |
| `TriggerGate.OwnerIsTableLookup` | app/src/main/java/io/homeassistant/companion/android/sensors/SensorReceiver.kt:70-161 | the gate's chain of action tests agrees with a table of the 20 gated actions and their owning sensors: an action is gated exactly when the table lists it, by the sensor the table names, so branch order does not matter |
| `TriggerGate.ChargingActionsOwnedByBattery` | app/src/main/java/io/homeassistant/companion/android/sensors/SensorReceiver.kt:89-98 | the four charging actions are gated by the battery level sensor |
| `TriggerGate.UngatedActionsProceed` | app/src/main/java/io/homeassistant/companion/android/sensors/SensorReceiver.kt:70-167 | the periodic request, the three boot actions and a missing action match no gated branch and always proceed, without a second pass |
| `TriggerGate.ChargingRunsTwoPasses` | app/src/main/java/io/homeassistant/companion/android/sensors/SensorReceiver.kt:170-175 | a charging action whose battery sensor is enabled proceeds with a second pass and no location refresh |
| `Receiver.SensorDao.Get` | app/src/main/java/io/homeassistant/companion/android/sensors/SensorReceiver.kt:193 | reading a row returns a row exactly when the table holds that id, and then it returns the stored row |
| `Receiver.SensorDao.Update` | app/src/main/java/io/homeassistant/companion/android/sensors/SensorReceiver.kt:203 | persisting a row replaces the stored row of that id and creates none |
| `Receiver.RequestSensorUpdate` | app/src/main/java/io/homeassistant/companion/android/sensors/SensorReceiver.kt:187-191 | querying a provider changes the table exactly by its writes; its exception has no further effect |
| `Receiver.ReconcileOne` | app/src/main/java/io/homeassistant/companion/android/sensors/SensorReceiver.kt:193-210 | the body of the descriptor loop changes the table, the calls, the batch and the call counter exactly as one step of the pass function does |
| `Receiver.ReconcileProvider` | app/src/main/java/io/homeassistant/companion/android/sensors/SensorReceiver.kt:192-211 | the descriptor loop computes `ReconcileAll` of the table and its descriptors |
| `Receiver.VisitProviders` | app/src/main/java/io/homeassistant/companion/android/sensors/SensorReceiver.kt:186-212 | the provider loop computes `Collect`: the table, calls and batch after every provider was queried and reconciled |
| `Receiver.InvalidateBatch` | app/src/main/java/io/homeassistant/companion/android/sensors/SensorReceiver.kt:224-230 | the recovery loop leaves the table equal to `Invalidate` of the old table and the batch |
| `Receiver.UpdateSensors` | app/src/main/java/io/homeassistant/companion/android/sensors/SensorReceiver.kt:179-233 | the whole method leaves the table and the call trace equal to `Pass` over `MANAGERS`, so every `Reconciliation` lemma holds of it |
| `Receiver.UpdateLocationSensor` | app/src/main/java/io/homeassistant/companion/android/sensors/SensorReceiver.kt:235-243 | the location refresh queries only the location provider and changes the table only by that provider's writes |
| `Receiver.Passes` | app/src/main/java/io/homeassistant/companion/android/sensors/SensorReceiver.kt:163-176 | definition (no contract of its own): the first pass, then the location refresh when asked for, then the 5000 ms delay and the second pass when asked for, each starting from the table the previous step left |
| `Receiver.Receive` | app/src/main/java/io/homeassistant/companion/android/sensors/SensorReceiver.kt:63-177 | definition (no contract of its own): the gate, then `Passes` over `MANAGERS`; `OnReceive` is proved to compute it |
| `Receiver.OnReceive` | app/src/main/java/io/homeassistant/companion/android/sensors/SensorReceiver.kt:63-177 | a broadcast leaves the table and the call trace equal to `Receive`: the gate, then the passes in sequence |
| `Receiver.DisabledOwnerSkipsEverything` | app/src/main/java/io/homeassistant/companion/android/sensors/SensorReceiver.kt:70-161 | a gated broadcast whose owning sensor is absent or disabled queries no provider, makes no remote call and leaves the table untouched |
| `Receiver.OpenGateRunsPasses` | app/src/main/java/io/homeassistant/companion/android/sensors/SensorReceiver.kt:70-176 | conversely, an ungated broadcast, or one whose owning sensor's row is enabled, runs the passes: a full pass, the location refresh exactly for boot actions, the delayed second pass exactly for charging actions |
| `Receiver.ReceiveSchedule` | app/src/main/java/io/homeassistant/companion/android/sensors/SensorReceiver.kt:163-176 | a broadcast that proceeds queries every provider once; a boot action then queries the location provider; a charging action then waits 5000 ms and queries every provider again; a skipped one queries nothing |
| `Receiver.ReceiveKeepsEnabled` | app/src/main/java/io/homeassistant/companion/android/sensors/SensorReceiver.kt:63-177 | a broadcast deletes no row and changes no `enabled` flag |

The model follows the code in these points:

- A sensor is registered only when its type is non-blank (Kotlin `isBlank`). A type made only of
  whitespace therefore never registers.
- The boot-only location refresh also runs for the two quickboot actions
  (`android.intent.action.QUICKBOOT_POWERON` and `com.htc.intent.action.QUICKBOOT_POWERON`).
- The code does not serialise the read-modify-write of a row per sensor id. The model runs passes
  one after another, as a single thread would.

## Left out

- Coroutines, `ioScope` and the real 5-second wait are left out. Passes run in sequence, and the wait
  appears only as a `Delay(5000)` event. Overlapping passes and their races on a row are not modelled,
  because the code has no per-id locking to model.
- Dependency injection, logging and resource-string lookup are left out. A descriptor carries its display
  name already resolved.
- The individual sensor providers are not part of this model. A provider's refresh is any set of row
  writes that keeps `enabled` and `registered` of existing rows and creates unregistered rows (`Absorb`).
  This is an assumption about those providers, not a proved fact.
- The unique ids of the ten gating sensors are defined in provider files that are not part of this model.
  They are a parameter (`idOf`). The broadcast action strings are the Android platform's values of the
  constants the receiver matches on.
- The integration client is not modelled. Its answers are inputs, and transport timeouts count as
  failures. The wire format is not modelled.
- The exact fields that `toSensorRegistration` copies are not modelled: the database entity code is not
  part of this model. A registration carries id, name, state, type, unit and attributes.
- `sensorDao.update` is modelled as replacing an existing row and never inserting one. The DAO code is
  not part of this model.
- Reads and writes of the sensor table are modelled as never throwing. In the code, a throwing
  `sensorDao.update` at SensorReceiver.kt:203 comes after `sensor.registered = true`, so the stored row
  stays unregistered while the in-memory sensor is still batched at :208-209. The reads at :193, :198
  and :225-228 are outside any `try`. A throw there ends the coroutine, and the rest of the pass, the
  location refresh and the second pass (:163-176) are skipped. None of this is modelled.
- PassBatchEntries: states push-time contents only for entries whose id no later provider writes.
  A later provider may rewrite the row after its entry was taken, and the entry keeps the row as
  that entry's own provider left it (the first half of the lemma). The entry does not follow
  the later write.
- Kotlin `catch (e: Exception)` does not catch JVM `Error`s. An `Error` thrown by a provider or a remote
  call would abort the pass, and that is not modelled.
- SensorDetailFragment.kt is not part of this model. It is a settings screen that toggles `enabled` and
  formats a summary.
- LocationWorker.kt is not part of this model. It is periodic scheduling plumbing. Its call to
  `updateLocationSensor` passes two arguments where the method takes one.

=== FILE: gate.dfy ===
/**
 * The trigger gate of the broadcast receiver: an incoming broadcast action
 * either names a device-state category whose owning sensor must be enabled
 * for a pass to run, or is ungated (periodic request, boot, anything else).
 * Charging actions ask for a second pass after a delay; boot actions ask for
 * a location refresh. The action strings are the Android platform's values
 * of the constants the receiver matches on.
 */
module TriggerGate {
  import opened SensorModel

  /** The sensors that own a gated broadcast category. */
  datatype GatedSensor =
    | NextAlarm | BluetoothConnection | BatteryLevel | WifiConnection | InteractiveDevice
    | Doze | PowerSave | PhoneState | AudioSensor | DndSensor

  const ActionNextAlarmClockChanged: string := "android.app.action.NEXT_ALARM_CLOCK_CHANGED"
  const ActionAclConnected: string := "android.bluetooth.device.action.ACL_CONNECTED"
  const ActionAclDisconnected: string := "android.bluetooth.device.action.ACL_DISCONNECTED"
  const ActionBluetoothStateChanged: string := "android.bluetooth.adapter.action.STATE_CHANGED"
  const ActionBatteryLow: string := "android.intent.action.BATTERY_LOW"
  const ActionBatteryOkay: string := "android.intent.action.BATTERY_OKAY"
  const ActionPowerConnected: string := "android.intent.action.ACTION_POWER_CONNECTED"
  const ActionPowerDisconnected: string := "android.intent.action.ACTION_POWER_DISCONNECTED"
  const ActionWifiNetworkStateChanged: string := "android.net.wifi.STATE_CHANGE"
  const ActionScreenOff: string := "android.intent.action.SCREEN_OFF"
  const ActionScreenOn: string := "android.intent.action.SCREEN_ON"
  const ActionDeviceIdleModeChanged: string := "android.os.action.DEVICE_IDLE_MODE_CHANGED"
  const ActionPowerSaveModeChanged: string := "android.os.action.POWER_SAVE_MODE_CHANGED"
  const ActionPhoneStateChanged: string := "android.intent.action.PHONE_STATE"
  const ActionAudioBecomingNoisy: string := "android.media.AUDIO_BECOMING_NOISY"
  const ActionHeadsetPlug: string := "android.intent.action.HEADSET_PLUG"
  const ActionRingerModeChanged: string := "android.media.RINGER_MODE_CHANGED"
  const ActionMicrophoneMuteChanged: string := "android.media.action.MICROPHONE_MUTE_CHANGED"
  const ActionSpeakerphoneStateChanged: string := "android.media.action.SPEAKERPHONE_STATE_CHANGED"
  const ActionInterruptionFilterChanged: string := "android.app.action.INTERRUPTION_FILTER_CHANGED"
  const ActionBootCompleted: string := "android.intent.action.BOOT_COMPLETED"
  const ActionQuickbootPoweron: string := "android.intent.action.QUICKBOOT_POWERON"
  const ActionHtcQuickbootPoweron: string := "com.htc.intent.action.QUICKBOOT_POWERON"
  const ActionRequestSensorsUpdate: string := "io.homeassistant.companion.android.background.REQUEST_SENSORS_UPDATE"

  const BluetoothActions: seq<string> := [ActionAclConnected, ActionAclDisconnected, ActionBluetoothStateChanged]
  const ChargingActions: seq<string> := [ActionBatteryLow, ActionBatteryOkay, ActionPowerConnected, ActionPowerDisconnected]
  const ScreenActions: seq<string> := [ActionScreenOff, ActionScreenOn]
  const AudioActions: seq<string> := [
    ActionAudioBecomingNoisy, ActionHeadsetPlug, ActionRingerModeChanged,
    ActionMicrophoneMuteChanged, ActionSpeakerphoneStateChanged
  ]
  const BootActions: seq<string> := [ActionBootCompleted, ActionQuickbootPoweron, ActionHtcQuickbootPoweron]

  /** The sensor that owns the category of `action`; None for an ungated (or absent) action. */
  function Owner(action: Option<string>): Option<GatedSensor>
  {
    if action.None? then None
    else
      var a := action.value;
      if a == ActionNextAlarmClockChanged then Some(NextAlarm)
      else if a in BluetoothActions then Some(BluetoothConnection)
      else if a in ChargingActions then Some(BatteryLevel)
      else if a == ActionWifiNetworkStateChanged then Some(WifiConnection)
      else if a in ScreenActions then Some(InteractiveDevice)
      else if a == ActionDeviceIdleModeChanged then Some(Doze)
      else if a == ActionPowerSaveModeChanged then Some(PowerSave)
      else if a == ActionPhoneStateChanged then Some(PhoneState)
      else if a in AudioActions then Some(AudioSensor)
      else if a == ActionInterruptionFilterChanged then Some(DndSensor)
      else None
  }

  predicate IsCharging(action: Option<string>)
  {
    action.Some? && action.value in ChargingActions
  }

  predicate IsBoot(action: Option<string>)
  {
    action.Some? && action.value in BootActions
  }

  /** The record of `id` exists and is enabled (`sensor?.enabled == true`). */
  predicate IsEnabled(store: Store, id: string)
  {
    id in store && store[id].enabled
  }

  /** Skip, or run a pass followed by an optional location refresh and an optional second pass. */
  datatype Decision = Skip | Proceed(locationRefresh: bool, secondPass: bool)

  /** The gate: `idOf` gives the unique id of each owning sensor. */
  function Decide(action: Option<string>, store: Store, idOf: GatedSensor -> string): Decision
  {
    match Owner(action)
    case Some(g) =>
      if !IsEnabled(store, idOf(g)) then Skip else Proceed(IsBoot(action), IsCharging(action))
    case None => Proceed(IsBoot(action), IsCharging(action))
  }

  /**
   * The gated actions with the sensor that owns each, one entry per action
   * named in the gating branches of `onReceive`, written as a table rather
   * than as a chain of tests.
   */
  const GatedActions: map<string, GatedSensor> := map[
    ActionNextAlarmClockChanged := NextAlarm,
    ActionAclConnected := BluetoothConnection,
    ActionAclDisconnected := BluetoothConnection,
    ActionBluetoothStateChanged := BluetoothConnection,
    ActionBatteryLow := BatteryLevel,
    ActionBatteryOkay := BatteryLevel,
    ActionPowerConnected := BatteryLevel,
    ActionPowerDisconnected := BatteryLevel,
    ActionWifiNetworkStateChanged := WifiConnection,
    ActionScreenOff := InteractiveDevice,
    ActionScreenOn := InteractiveDevice,
    ActionDeviceIdleModeChanged := Doze,
    ActionPowerSaveModeChanged := PowerSave,
    ActionPhoneStateChanged := PhoneState,
    ActionAudioBecomingNoisy := AudioSensor,
    ActionHeadsetPlug := AudioSensor,
    ActionRingerModeChanged := AudioSensor,
    ActionMicrophoneMuteChanged := AudioSensor,
    ActionSpeakerphoneStateChanged := AudioSensor,
    ActionInterruptionFilterChanged := DndSensor
  ]

  /**
   * The chain of tests in `Owner` agrees with the table: an action is gated
   * exactly when the table lists it, and then by the sensor the table names.
   * So the order of the branches does not matter.
   */
  lemma OwnerIsTableLookup(a: string)
    ensures Owner(Some(a)) == if a in GatedActions then Some(GatedActions[a]) else None
  {
  }

  /** Every charging action is owned by the battery level sensor. */
  lemma ChargingActionsOwnedByBattery(a: string)
    requires a in ChargingActions
    ensures Owner(Some(a)) == Some(BatteryLevel)
  {
  }

  /** The periodic request, the boot actions and an absent action are ungated and always proceed. */
  lemma UngatedActionsProceed(action: Option<string>, store: Store, idOf: GatedSensor -> string)
    requires action.None? || action.value in BootActions || action.value == ActionRequestSensorsUpdate
    ensures Owner(action).None?
    ensures Decide(action, store, idOf) == Proceed(IsBoot(action), false)
  {
  }

  /** A charging action whose battery sensor is enabled runs two passes and no location refresh. */
  lemma ChargingRunsTwoPasses(a: string, store: Store, idOf: GatedSensor -> string)
    requires a in ChargingActions && IsEnabled(store, idOf(BatteryLevel))
    ensures Decide(Some(a), store, idOf) == Proceed(false, true)
  {
  }
}

=== FILE: model.dfy ===
/**
 * Data model of the sensor reconciliation engine: the persisted sensor
 * records, the descriptors that providers declare, the registrations sent to
 * the integration endpoint, the fixed provider list, and the events a pass
 * emits towards its collaborators.
 */
module SensorModel {

  datatype Option<T> = None | Some(value: T)

  /** One extra attribute stored beside a sensor record. */
  datatype Attribute = Attribute(name: string, value: string, valueType: string)

  /** A persisted sensor row; the store keys it by the sensor's unique id. */
  datatype Record = Record(
    enabled: bool,
    registered: bool,
    sensorType: string,
    state: string,
    unitOfMeasurement: Option<string>,
    attributes: seq<Attribute>)

  /** The sensor table: unique id to record. */
  type Store = map<string, Record>

  /** A sensor as a provider declares it; `displayName` is the resolved name string. */
  datatype Descriptor = Descriptor(id: string, displayName: string)

  /** What is sent to the integration endpoint, for one sensor. */
  datatype Registration = Registration(
    uniqueId: string,
    name: Option<string>,
    state: string,
    sensorType: string,
    unitOfMeasurement: Option<string>,
    attributes: seq<Attribute>)

  /** Builds the registration of record `r` stored under `id`, with an optional display name. */
  function ToRegistration(id: string, r: Record, name: Option<string>): Registration
  {
    Registration(id, name, r.state, r.sensorType, r.unitOfMeasurement, r.attributes)
  }

  /**
   * Whitespace as Kotlin on the JVM defines it: Character.isWhitespace or
   * Character.isSpaceChar.
   */
  predicate IsWhitespace(c: char)
  {
    var n := c as int;
    (0x09 <= n <= 0x0D) || (0x1C <= n <= 0x20) || n == 0xA0 || n == 0x1680 ||
    (0x2000 <= n <= 0x200A) || n == 0x2028 || n == 0x2029 || n == 0x202F ||
    n == 0x205F || n == 0x3000
  }

  /** Kotlin's `isBlank`: empty or whitespace only. */
  predicate IsBlank(s: string)
  {
    forall i :: 0 <= i < |s| ==> IsWhitespace(s[i])
  }

  /** The registration condition of a pass: enabled, not yet registered, with a type. */
  predicate NeedsRegistration(r: Record)
  {
    r.enabled && !r.registered && !IsBlank(r.sensorType)
  }

  /** The batch condition of a pass: enabled and registered. */
  predicate Reportable(r: Record)
  {
    r.enabled && r.registered
  }

  /** The sensor providers; the last one is used only by the location refresh. */
  datatype ProviderKind =
    | ActivitySensorManager | AudioSensorManager | BatterySensorManager
    | BluetoothSensorManager | DNDSensorManager | GeocodeSensorManager
    | LastRebootSensorManager | LightSensorManager | NetworkSensorManager
    | NextAlarmManager | PhoneStateSensorManager | PowerSensorManager
    | PressureSensorManager | ProximitySensorManager | StepsSensorManager
    | StorageSensorManager | LocationSensorManager

  /** The fixed order in which a pass queries the providers. */
  const MANAGERS: seq<ProviderKind> := [
    ActivitySensorManager, AudioSensorManager, BatterySensorManager,
    BluetoothSensorManager, DNDSensorManager, GeocodeSensorManager,
    LastRebootSensorManager, LightSensorManager, NetworkSensorManager,
    NextAlarmManager, PhoneStateSensorManager, PowerSensorManager,
    PressureSensorManager, ProximitySensorManager, StepsSensorManager,
    StorageSensorManager
  ]

  /**
   * What one `requestSensorUpdate` call did: the rows it wrote into the store
   * (before returning or throwing) and whether it threw.
   */
  datatype ProviderOutcome = ProviderOutcome(writes: Store, threw: bool)

  /**
   * The store after a provider wrote `writes`. A provider refreshes readings
   * and may create rows; it never touches `enabled` or `registered` of an
   * existing row, and the rows it creates are unregistered.
   */
  function Absorb(store: Store, writes: Store): (r: Store)
    ensures r.Keys == store.Keys + writes.Keys
    ensures forall id :: id in store ==>
      r[id].enabled == store[id].enabled && r[id].registered == store[id].registered
    ensures forall id :: id in writes && id !in store ==> !r[id].registered
    ensures forall id :: id in store && id !in writes ==> r[id] == store[id]
  {
    map id | id in store.Keys + writes.Keys ::
      if id !in writes then store[id]
      else if id in store then writes[id].(enabled := store[id].enabled, registered := store[id].registered)
      else writes[id].(registered := false)
  }

  /** The observable calls of a pass, in the order they are issued. */
  datatype Event =
    | RequestUpdate(provider: ProviderKind)
    | Register(reg: Registration, accepted: bool)
    | Push(batch: seq<Registration>, accepted: bool)
    | Delay(millis: nat)

  /** The provider queries and delays of a trace, in order (remote calls dropped). */
  function Schedule(trace: seq<Event>): seq<Event>
    decreases |trace|
  {
    if trace == [] then []
    else
      var e := trace[|trace| - 1];
      Schedule(trace[..|trace| - 1]) + (if e.RequestUpdate? || e.Delay? then [e] else [])
  }

  /** One query per provider, in the given order. */
  function RequestsOf(kinds: seq<ProviderKind>): (r: seq<Event>)
    ensures |r| == |kinds|
    ensures forall i :: 0 <= i < |kinds| ==> r[i] == RequestUpdate(kinds[i])
    decreases |kinds|
  {
    if kinds == [] then []
    else RequestsOf(kinds[..|kinds| - 1]) + [RequestUpdate(kinds[|kinds| - 1])]
  }

  lemma {:induction false} ScheduleAppend(a: seq<Event>, b: seq<Event>)
    ensures Schedule(a + b) == Schedule(a) + Schedule(b)
    decreases |b|
  {
    if b == [] {
      assert a + b == a;
    } else {
      var b' := b[..|b| - 1];
      assert (a + b)[..|a + b| - 1] == a + b';
      ScheduleAppend(a, b');
    }
  }
}

=== FILE: receiver.dfy ===
/**
 * The broadcast receiver as imperative code over the sensor table: the
 * `updateSensors` pass with its nested provider/descriptor loops, the
 * location refresh, and `onReceive`, which gates a broadcast and then runs
 * one or two passes. Each method is proved against the functions of
 * Reconciliation and TriggerGate; the lemmas at the end state what a whole
 * broadcast does.
 */
module Receiver {
  import opened SensorModel
  import opened Reconciliation
  import opened TriggerGate

  /** The persisted sensor table, read and written row by row. */
  class SensorDao {
    var records: Store

    constructor (initial: Store)
      ensures records == initial
    {
      records := initial;
    }

    /** The row of `id`, if any. */
    function Get(id: string): (r: Option<Record>)
      reads this
      ensures r.Some? <==> id in records
      ensures r.Some? ==> r.value == records[id]
    {
      if id in records then Some(records[id]) else None
    }

    /** Overwrites the row of `id`; a row that does not exist is not created. */
    method Update(id: string, record: Record)
      modifies this
      ensures records == if id in old(records) then old(records)[id := record] else old(records)
    {
      if id in records {
        records := records[id := record];
      }
    }
  }

  /** The delay before the second pass of a charging broadcast, in milliseconds. */
  const ChargerSettleMillis: nat := 5000

  /**
   * One provider's `requestSensorUpdate`: the provider writes its rows; an
   * exception it throws is caught and logged by the caller, so only its
   * writes matter.
   */
  method RequestSensorUpdate(dao: SensorDao, outcome: ProviderOutcome)
    modifies dao
    ensures dao.records == Absorb(old(dao.records), outcome.writes)
  {
    dao.records := Absorb(dao.records, outcome.writes);
  }

  /**
   * Reconciles one descriptor: registers its sensor when it needs it, then
   * adds it to the batch when it is enabled and registered.
   */
  method ReconcileOne(dao: SensorDao, basicSensor: Descriptor, accepted: nat -> bool,
                      trace0: seq<Event>, batch0: seq<Registration>, calls0: nat)
    returns (trace: seq<Event>, enabledRegistrations: seq<Registration>, calls: nat)
    modifies dao
    ensures PassState(dao.records, trace, enabledRegistrations, calls)
         == ReconcileSensor(PassState(old(dao.records), trace0, batch0, calls0), basicSensor, accepted)
  {
    trace, enabledRegistrations, calls := trace0, batch0, calls0;
    var sensor := dao.Get(basicSensor.id);
    if sensor.Some? && NeedsRegistration(sensor.value) {
      var reg := ToRegistration(basicSensor.id, sensor.value, Some(basicSensor.displayName));
      var ok := accepted(calls);
      trace := trace + [Register(reg, ok)];
      calls := calls + 1;
      if ok {
        sensor := Some(sensor.value.(registered := true));
        dao.Update(basicSensor.id, sensor.value);
      }
    }
    if sensor.Some? && Reportable(sensor.value) {
      enabledRegistrations := enabledRegistrations + [ToRegistration(basicSensor.id, sensor.value, None)];
    }
  }

  /** The inner loop of a pass: the descriptors of one provider, in order. */
  method ReconcileProvider(dao: SensorDao, sensors: seq<Descriptor>, accepted: nat -> bool,
                           trace0: seq<Event>, batch0: seq<Registration>, calls0: nat)
    returns (trace: seq<Event>, enabledRegistrations: seq<Registration>, calls: nat)
    modifies dao
    ensures PassState(dao.records, trace, enabledRegistrations, calls)
         == ReconcileAll(PassState(old(dao.records), trace0, batch0, calls0), sensors, accepted)
  {
    ghost var queried := PassState(dao.records, trace0, batch0, calls0);
    trace, enabledRegistrations, calls := trace0, batch0, calls0;
    var j := 0;
    while j < |sensors|
      invariant 0 <= j <= |sensors|
      invariant ReconcileAll(queried, sensors[..j], accepted)
             == PassState(dao.records, trace, enabledRegistrations, calls)
    {
      trace, enabledRegistrations, calls := ReconcileOne(dao, sensors[j], accepted, trace, enabledRegistrations, calls);
      assert sensors[..j + 1][..j] == sensors[..j];
      j := j + 1;
    }
    assert sensors[..j] == sensors;
  }

  /** After a failed push: clears `registered` on the row of every batched sensor that still has one. */
  method InvalidateBatch(dao: SensorDao, enabledRegistrations: seq<Registration>)
    modifies dao
    ensures dao.records == Invalidate(old(dao.records), enabledRegistrations)
  {
    ghost var collected := dao.records;
    var k := 0;
    while k < |enabledRegistrations|
      invariant 0 <= k <= |enabledRegistrations|
      invariant dao.records == Invalidate(collected, enabledRegistrations[..k])
    {
      var id := enabledRegistrations[k].uniqueId;
      InvalidateSnoc(collected, enabledRegistrations, k);
      var sensor := dao.Get(id);
      if sensor.Some? {
        dao.Update(id, sensor.value.(registered := false));
      }
      k := k + 1;
    }
    assert enabledRegistrations[..k] == enabledRegistrations;
  }

  lemma InvalidateSnoc(store: Store, batch: seq<Registration>, k: nat)
    requires k < |batch|
    ensures var s := Invalidate(store, batch[..k]);
      var id := batch[k].uniqueId;
      Invalidate(store, batch[..k + 1]) == if id in s then s[id := s[id].(registered := false)] else s
  {
    assert batch[..k + 1][..k] == batch[..k];
  }

  /** The outer loop of a pass: query each provider of `kinds`, then reconcile its descriptors. */
  method VisitProviders(dao: SensorDao, kinds: seq<ProviderKind>, sensorsOf: ProviderKind -> seq<Descriptor>,
                        oracle: PassOracle)
    returns (trace: seq<Event>, enabledRegistrations: seq<Registration>, calls: nat)
    modifies dao
    ensures PassState(dao.records, trace, enabledRegistrations, calls)
         == Collect(old(dao.records), kinds, sensorsOf, oracle)
  {
    ghost var s0 := dao.records;
    enabledRegistrations, calls, trace := [], 0, [];
    var i := 0;
    while i < |kinds|
      invariant 0 <= i <= |kinds|
      invariant VisitAll(Start(s0), kinds[..i], sensorsOf, oracle)
             == PassState(dao.records, trace, enabledRegistrations, calls)
    {
      var manager := kinds[i];
      RequestSensorUpdate(dao, oracle.update(manager));
      trace := trace + [RequestUpdate(manager)];
      trace, enabledRegistrations, calls :=
        ReconcileProvider(dao, sensorsOf(manager), oracle.registerAccepted, trace, enabledRegistrations, calls);
      assert kinds[..i + 1][..i] == kinds[..i];
      i := i + 1;
    }
    assert kinds[..i] == kinds;
  }

  /** One reconciliation pass over the providers in MANAGERS order. */
  method UpdateSensors(dao: SensorDao, sensorsOf: ProviderKind -> seq<Descriptor>, oracle: PassOracle)
    returns (trace: seq<Event>)
    modifies dao
    ensures dao.records == Pass(old(dao.records), MANAGERS, sensorsOf, oracle).store
    ensures trace == Pass(old(dao.records), MANAGERS, sensorsOf, oracle).trace
  {
    var enabledRegistrations, calls;
    trace, enabledRegistrations, calls := VisitProviders(dao, MANAGERS, sensorsOf, oracle);
    if |enabledRegistrations| > 0 {
      var success := oracle.pushAccepted;
      trace := trace + [Push(enabledRegistrations, success)];
      if !success {
        InvalidateBatch(dao, enabledRegistrations);
      }
    }
  }

  /** The location refresh: one query of the location provider, exception ignored. */
  method UpdateLocationSensor(dao: SensorDao, outcome: ProviderOutcome) returns (trace: seq<Event>)
    modifies dao
    ensures dao.records == Absorb(old(dao.records), outcome.writes)
    ensures trace == [RequestUpdate(LocationSensorManager)]
  {
    RequestSensorUpdate(dao, outcome);
    trace := [RequestUpdate(LocationSensorManager)];
  }

  /** What the collaborators answer during one broadcast. */
  datatype ReceiveOracle = ReceiveOracle(first: PassOracle, location: ProviderOutcome, second: PassOracle)

  /** The table after a broadcast and the calls it made. */
  datatype Outcome = Outcome(store: Store, trace: seq<Event>)

  /**
   * The passes of a broadcast that was let through: a pass over `kinds`,
   * the location refresh when asked for, then the delay and a second pass
   * when asked for.
   */
  function Passes(store: Store, kinds: seq<ProviderKind>, locationRefresh: bool, secondPass: bool,
                  sensorsOf: ProviderKind -> seq<Descriptor>, oracle: ReceiveOracle): Outcome
  {
    var p1 := Pass(store, kinds, sensorsOf, oracle.first);
    var loc: seq<Event> := if locationRefresh then [RequestUpdate(LocationSensorManager)] else [];
    var s1 := if locationRefresh then Absorb(p1.store, oracle.location.writes) else p1.store;
    if secondPass then
      var p2 := Pass(s1, kinds, sensorsOf, oracle.second);
      Outcome(p2.store, p1.trace + loc + [Delay(ChargerSettleMillis)] + p2.trace)
    else Outcome(s1, p1.trace + loc)
  }

  /** What one broadcast does: the gate, then the passes over `MANAGERS`. */
  function Receive(store: Store, action: Option<string>, sensorsOf: ProviderKind -> seq<Descriptor>,
                   idOf: GatedSensor -> string, oracle: ReceiveOracle): Outcome
  {
    match Decide(action, store, idOf)
    case Skip => Outcome(store, [])
    case Proceed(locationRefresh, secondPass) =>
      Passes(store, MANAGERS, locationRefresh, secondPass, sensorsOf, oracle)
  }

  /** `onReceive`: gate the broadcast, then run its passes one after the other. */
  method OnReceive(dao: SensorDao, action: Option<string>, sensorsOf: ProviderKind -> seq<Descriptor>,
                   idOf: GatedSensor -> string, oracle: ReceiveOracle) returns (trace: seq<Event>)
    modifies dao
    ensures Outcome(dao.records, trace) == Receive(old(dao.records), action, sensorsOf, idOf, oracle)
  {
    var decision := Decide(action, dao.records, idOf);
    if decision.Skip? {
      return [];
    }
    trace := UpdateSensors(dao, sensorsOf, oracle.first);
    var refresh: seq<Event> := [];
    if decision.locationRefresh {
      refresh := UpdateLocationSensor(dao, oracle.location);
    }
    trace := trace + refresh;
    if decision.secondPass {
      var again := UpdateSensors(dao, sensorsOf, oracle.second);
      trace := trace + [Delay(ChargerSettleMillis)] + again;
    }
  }

  /**
   * A gated broadcast whose owning sensor is absent or disabled does
   * nothing: no provider is queried, no remote call is made, and the table
   * is untouched.
   */
  lemma DisabledOwnerSkipsEverything(store: Store, action: Option<string>, sensorsOf: ProviderKind -> seq<Descriptor>,
                                     idOf: GatedSensor -> string, oracle: ReceiveOracle)
    requires Owner(action).Some? && !IsEnabled(store, idOf(Owner(action).value))
    ensures Receive(store, action, sensorsOf, idOf, oracle) == Outcome(store, [])
  {
  }

  /**
   * The converse: a broadcast that is ungated, or whose owning sensor is
   * enabled, runs the passes, with the location refresh for a boot action
   * and the delayed second pass for a charging action.
   */
  lemma OpenGateRunsPasses(store: Store, action: Option<string>, sensorsOf: ProviderKind -> seq<Descriptor>,
                           idOf: GatedSensor -> string, oracle: ReceiveOracle)
    requires Owner(action).None? || IsEnabled(store, idOf(Owner(action).value))
    ensures Receive(store, action, sensorsOf, idOf, oracle)
         == Passes(store, MANAGERS, IsBoot(action), IsCharging(action), sensorsOf, oracle)
  {
  }

  /**
   * The provider queries and delays of a broadcast: none when skipped;
   * otherwise one full pass, then the location provider for a boot action,
   * then for a charging action the 5-second delay and a second full pass.
   */
  lemma ReceiveSchedule(store: Store, action: Option<string>, sensorsOf: ProviderKind -> seq<Descriptor>,
                        idOf: GatedSensor -> string, oracle: ReceiveOracle)
    ensures Schedule(Receive(store, action, sensorsOf, idOf, oracle).trace) ==
      if Decide(action, store, idOf).Skip? then []
      else (RequestsOf(MANAGERS)
            + (if IsBoot(action) then [RequestUpdate(LocationSensorManager)] else [])
            + (if IsCharging(action) then [Delay(ChargerSettleMillis)] + RequestsOf(MANAGERS) else []))
  {
    var d := Decide(action, store, idOf);
    if d.Proceed? {
      PassesSchedule(store, MANAGERS, d.locationRefresh, d.secondPass, sensorsOf, oracle);
    }
  }

  /** The provider queries and delays of the passes, for any provider list. */
  lemma PassesSchedule(store: Store, kinds: seq<ProviderKind>, locationRefresh: bool, secondPass: bool,
                       sensorsOf: ProviderKind -> seq<Descriptor>, oracle: ReceiveOracle)
    ensures Schedule(Passes(store, kinds, locationRefresh, secondPass, sensorsOf, oracle).trace) ==
      RequestsOf(kinds)
      + (if locationRefresh then [RequestUpdate(LocationSensorManager)] else [])
      + (if secondPass then [Delay(ChargerSettleMillis)] + RequestsOf(kinds) else [])
  {
    var p1 := Pass(store, kinds, sensorsOf, oracle.first);
    PassQueriesEveryProvider(store, kinds, sensorsOf, oracle.first);
    var loc: seq<Event> := if locationRefresh then [RequestUpdate(LocationSensorManager)] else [];
    var s1 := if locationRefresh then Absorb(p1.store, oracle.location.writes) else p1.store;
    var p2 := Pass(s1, kinds, sensorsOf, oracle.second);
    PassQueriesEveryProvider(s1, kinds, sensorsOf, oracle.second);
    SequencedSchedule(p1.trace, loc, p2.trace, secondPass);
  }

  /** The schedule of a first pass, an optional location query and an optional delayed second pass. */
  lemma SequencedSchedule(t1: seq<Event>, loc: seq<Event>, t2: seq<Event>, again: bool)
    requires loc == [] || loc == [RequestUpdate(LocationSensorManager)]
    ensures Schedule(if again then t1 + loc + [Delay(ChargerSettleMillis)] + t2 else t1 + loc)
         == Schedule(t1) + loc + (if again then [Delay(ChargerSettleMillis)] + Schedule(t2) else [])
  {
    assert Schedule(loc) == loc by {
      if loc != [] {
        assert loc[..0] == [];
      }
    }
    ScheduleAppend(t1, loc);
    if again {
      var delay := [Delay(ChargerSettleMillis)];
      assert Schedule(delay) == delay by {
        assert delay[..0] == [];
      }
      ScheduleAppend(t1 + loc, delay);
      ScheduleAppend(t1 + loc + delay, t2);
    } else {
      assert Schedule(t1) + loc + [] == Schedule(t1) + loc;
    }
  }

  /**
   * A broadcast deletes no row and changes no `enabled` flag; rows appear
   * only through provider writes.
   */
  lemma ReceiveKeepsEnabled(store: Store, action: Option<string>, sensorsOf: ProviderKind -> seq<Descriptor>,
                            idOf: GatedSensor -> string, oracle: ReceiveOracle)
    ensures var r := Receive(store, action, sensorsOf, idOf, oracle);
      store.Keys <= r.store.Keys &&
      forall id :: id in store ==> r.store[id].enabled == store[id].enabled
  {
    var d := Decide(action, store, idOf);
    if d.Proceed? {
      PassesKeepEnabled(store, MANAGERS, d.locationRefresh, d.secondPass, sensorsOf, oracle);
    }
  }

  lemma PassesKeepEnabled(store: Store, kinds: seq<ProviderKind>, locationRefresh: bool, secondPass: bool,
                          sensorsOf: ProviderKind -> seq<Descriptor>, oracle: ReceiveOracle)
    ensures var r := Passes(store, kinds, locationRefresh, secondPass, sensorsOf, oracle);
      store.Keys <= r.store.Keys &&
      forall id :: id in store ==> r.store[id].enabled == store[id].enabled
  {
    var p1 := Pass(store, kinds, sensorsOf, oracle.first);
    PassFrame(store, kinds, sensorsOf, oracle.first);
    var s1 := if locationRefresh then Absorb(p1.store, oracle.location.writes) else p1.store;
    assert store.Keys <= s1.Keys && forall id :: id in store ==> s1[id].enabled == store[id].enabled;
    if secondPass {
      PassFrame(s1, kinds, sensorsOf, oracle.second);
    }
  }
}

=== FILE: reconciliation.dfy ===
/**
 * One reconciliation pass (`updateSensors`) as a function of the store and
 * of what the collaborators answer: query each provider in turn, register
 * the sensors that need it, collect the batch of enabled and registered
 * sensors, push it, and unregister the whole batch when the push fails.
 *
 * The state of a pass is threaded through functions that extend a prefix by
 * one element (provider, descriptor, batch entry), which is the shape of the
 * loops in Receiver.UpdateSensors.
 */
module Reconciliation {
  import opened SensorModel

  /**
   * What the collaborators answer during one pass: each provider's
   * `requestSensorUpdate`, whether the n-th `registerSensor` call of the
   * pass returned without throwing (its result is not inspected, so a call
   * that returns normally always marks the record registered), and the
   * `updateSensors` push (false when it returned false or threw).
   */
  datatype PassOracle = PassOracle(
    update: ProviderKind -> ProviderOutcome,
    registerAccepted: nat -> bool,
    pushAccepted: bool)

  /** The state of a pass in progress: the store, the calls so far, the batch, and the registration calls issued. */
  datatype PassState = PassState(store: Store, trace: seq<Event>, batch: seq<Registration>, calls: nat)

  function Start(store: Store): PassState
  {
    PassState(store, [], [], 0)
  }

  /** The ids of `ds`, in order. */
  function Ids(ds: seq<Descriptor>): seq<string>
    decreases |ds|
  {
    if ds == [] then [] else Ids(ds[..|ds| - 1]) + [ds[|ds| - 1].id]
  }

  /** The ids of all descriptors of `kinds`, provider by provider. */
  function AllIds(kinds: seq<ProviderKind>, sensorsOf: ProviderKind -> seq<Descriptor>): seq<string>
    decreases |kinds|
  {
    if kinds == [] then []
    else AllIds(kinds[..|kinds| - 1], sensorsOf) + Ids(sensorsOf(kinds[|kinds| - 1]))
  }

  lemma {:induction false} AllIdsSnoc(ids: seq<string>, kinds: seq<ProviderKind>, sensorsOf: ProviderKind -> seq<Descriptor>)
    requires kinds != []
    ensures ids + AllIds(kinds, sensorsOf)
         == ids + AllIds(kinds[..|kinds| - 1], sensorsOf) + Ids(sensorsOf(kinds[|kinds| - 1]))
  {
    var a, b := AllIds(kinds[..|kinds| - 1], sensorsOf), Ids(sensorsOf(kinds[|kinds| - 1]));
    assert AllIds(kinds, sensorsOf) == a + b;
    assert ids + (a + b) == ids + a + b;
  }

  /** The unique ids of a batch, in order. */
  function BatchIds(batch: seq<Registration>): seq<string>
    decreases |batch|
  {
    if batch == [] then [] else BatchIds(batch[..|batch| - 1]) + [batch[|batch| - 1].uniqueId]
  }

  /** The ids that the providers in `kinds` write. */
  function WrittenIds(kinds: seq<ProviderKind>, update: ProviderKind -> ProviderOutcome): set<string>
    decreases |kinds|
  {
    if kinds == [] then {}
    else WrittenIds(kinds[..|kinds| - 1], update) + update(kinds[|kinds| - 1]).writes.Keys
  }

  /** The store after only the provider writes of `kinds`, in order. */
  function AbsorbAll(store: Store, kinds: seq<ProviderKind>, update: ProviderKind -> ProviderOutcome): Store
    decreases |kinds|
  {
    if kinds == [] then store
    else Absorb(AbsorbAll(store, kinds[..|kinds| - 1], update), update(kinds[|kinds| - 1]).writes)
  }

  /** `t` is `s` with at most some `registered` flags raised: same ids, same data. */
  ghost predicate OnlyRegisters(s: Store, t: Store)
  {
    && s.Keys == t.Keys
    && forall id :: id in s ==>
         t[id] == s[id].(registered := t[id].registered) && (s[id].registered ==> t[id].registered)
  }

  /** Registration step for descriptor `d`. */
  function RegisterStep(st: PassState, d: Descriptor, accepted: nat -> bool): PassState
  {
    if d.id in st.store && NeedsRegistration(st.store[d.id]) then
      var reg := ToRegistration(d.id, st.store[d.id], Some(d.displayName));
      var ok := accepted(st.calls);
      PassState(
        if ok then st.store[d.id := st.store[d.id].(registered := true)] else st.store,
        st.trace + [Register(reg, ok)],
        st.batch,
        st.calls + 1)
    else st
  }

  /** Batch inclusion step for descriptor `d`; batch entries carry no display name. */
  function BatchStep(st: PassState, d: Descriptor): PassState
  {
    if d.id in st.store && Reportable(st.store[d.id]) then
      st.(batch := st.batch + [ToRegistration(d.id, st.store[d.id], None)])
    else st
  }

  function ReconcileSensor(st: PassState, d: Descriptor, accepted: nat -> bool): PassState
  {
    BatchStep(RegisterStep(st, d, accepted), d)
  }

  /**
   * What reconciling one descriptor does. A record that needs registration
   * gets exactly one `registerSensor` call, carrying the descriptor's display
   * name and the record's data; an accepted call marks the record
   * registered, a refused one leaves the table as it was. Any other record
   * gets no call and is left alone. Afterwards the record joins the batch,
   * without a display name and with its current data, exactly when it is
   * enabled and registered.
   */
  lemma ReconcileSensorEffect(st: PassState, d: Descriptor, accepted: nat -> bool)
    ensures var r := ReconcileSensor(st, d, accepted);
      if d.id in st.store && NeedsRegistration(st.store[d.id]) then
        var ok := accepted(st.calls);
        && r.trace == st.trace + [Register(ToRegistration(d.id, st.store[d.id], Some(d.displayName)), ok)]
        && r.store == (if ok then st.store[d.id := st.store[d.id].(registered := true)] else st.store)
        && r.calls == st.calls + 1
      else
        r.trace == st.trace && r.store == st.store && r.calls == st.calls
    ensures var r := ReconcileSensor(st, d, accepted);
      r.batch == st.batch + (if d.id in r.store && Reportable(r.store[d.id])
                             then [ToRegistration(d.id, r.store[d.id], None)] else [])
  {
  }

  /** The batch entries from index `lo` on carry the current data of their records in `s`. */
  ghost predicate EntriesMatch(batch: seq<Registration>, lo: nat, s: Store)
  {
    forall i :: lo <= i < |batch| ==>
      batch[i].uniqueId in s && batch[i] == ToRegistration(batch[i].uniqueId, s[batch[i].uniqueId], None)
  }

  /** Raising `registered` flags does not change what a batch entry carries. */
  lemma EntriesMatchRegisters(batch: seq<Registration>, lo: nat, s: Store, t: Store)
    requires EntriesMatch(batch, lo, s) && OnlyRegisters(s, t)
    ensures EntriesMatch(batch, lo, t)
  {
    forall i | lo <= i < |batch|
      ensures batch[i].uniqueId in t && batch[i] == ToRegistration(batch[i].uniqueId, t[batch[i].uniqueId], None)
    {
      var id := batch[i].uniqueId;
      assert t[id] == s[id].(registered := t[id].registered);
    }
  }

  /**
   * Reconciles the descriptors `ds` in order. Only `registered` flags are
   * raised, there are no more `registerSensor` calls than descriptors, those
   * calls are the only events added, and the batch entries added carry the
   * current data of their records.
   */
  function ReconcileAll(st: PassState, ds: seq<Descriptor>, accepted: nat -> bool): (r: PassState)
    ensures OnlyRegisters(st.store, r.store)
    ensures st.trace <= r.trace && st.batch <= r.batch
    ensures r.calls - st.calls == |r.trace| - |st.trace| <= |ds|
    ensures forall i :: |st.trace| <= i < |r.trace| ==> r.trace[i].Register?
    ensures EntriesMatch(r.batch, |st.batch|, r.store)
    decreases |ds|
  {
    if ds == [] then st
    else
      var prev := ReconcileAll(st, ds[..|ds| - 1], accepted);
      ReconcileSensorStep(prev, ds[|ds| - 1], accepted);
      OnlyRegistersTransitive(st.store, prev.store, ReconcileSensor(prev, ds[|ds| - 1], accepted).store);
      EntriesMatchRegisters(prev.batch, |st.batch|, prev.store, ReconcileSensor(prev, ds[|ds| - 1], accepted).store);
      ReconcileSensor(prev, ds[|ds| - 1], accepted)
  }

  /** One descriptor: at most one registration call, and only a `registered` flag may be raised. */
  lemma ReconcileSensorStep(st: PassState, d: Descriptor, accepted: nat -> bool)
    ensures var r := ReconcileSensor(st, d, accepted);
      && OnlyRegisters(st.store, r.store)
      && st.trace <= r.trace && st.batch <= r.batch
      && r.calls - st.calls == |r.trace| - |st.trace| <= 1
      && (forall i :: |st.trace| <= i < |r.trace| ==> r.trace[i].Register?)
      && EntriesMatch(r.batch, |st.batch|, r.store)
  {
    var r1 := RegisterStep(st, d, accepted);
    assert OnlyRegisters(st.store, r1.store);
    assert r1.store == ReconcileSensor(st, d, accepted).store && r1.trace == ReconcileSensor(st, d, accepted).trace;
  }

  lemma OnlyRegistersTransitive(s: Store, t: Store, u: Store)
    requires OnlyRegisters(s, t) && OnlyRegisters(t, u)
    ensures OnlyRegisters(s, u)
  {
  }

  /** Queries provider `kind` (its exception, if any, is ignored) and reconciles its descriptors. */
  function VisitProvider(st: PassState, kind: ProviderKind,
                         sensorsOf: ProviderKind -> seq<Descriptor>, oracle: PassOracle): PassState
  {
    var queried := st.(store := Absorb(st.store, oracle.update(kind).writes),
                       trace := st.trace + [RequestUpdate(kind)]);
    ReconcileAll(queried, sensorsOf(kind), oracle.registerAccepted)
  }

  /**
   * Visits the providers `kinds` in order. The set of ids grows by exactly
   * what the providers write; no record loses its `enabled` value or a
   * `registered` flag.
   */
  function VisitAll(st: PassState, kinds: seq<ProviderKind>,
                    sensorsOf: ProviderKind -> seq<Descriptor>, oracle: PassOracle): (r: PassState)
    ensures r.store.Keys == st.store.Keys + WrittenIds(kinds, oracle.update)
    ensures forall id :: id in st.store ==>
      r.store[id].enabled == st.store[id].enabled && (st.store[id].registered ==> r.store[id].registered)
    ensures st.trace <= r.trace && st.batch <= r.batch && st.calls <= r.calls
    decreases |kinds|
  {
    if kinds == [] then st
    else
      var prev := VisitAll(st, kinds[..|kinds| - 1], sensorsOf, oracle);
      VisitProviderStep(prev, kinds[|kinds| - 1], sensorsOf, oracle);
      assert forall id :: id in st.store ==> id in prev.store;
      VisitProvider(prev, kinds[|kinds| - 1], sensorsOf, oracle)
  }

  /** One provider: ids grow by its writes; `enabled` is kept and no `registered` flag is lowered. */
  lemma VisitProviderStep(st: PassState, kind: ProviderKind,
                          sensorsOf: ProviderKind -> seq<Descriptor>, oracle: PassOracle)
    ensures var r := VisitProvider(st, kind, sensorsOf, oracle);
      && r.store.Keys == st.store.Keys + oracle.update(kind).writes.Keys
      && (forall id :: id in st.store ==>
            r.store[id].enabled == st.store[id].enabled && (st.store[id].registered ==> r.store[id].registered))
      && st.trace <= r.trace && st.batch <= r.batch && st.calls <= r.calls
  {
  }

  /** The state of a pass after the provider loop, before the push. */
  function Collect(store: Store, kinds: seq<ProviderKind>,
                   sensorsOf: ProviderKind -> seq<Descriptor>, oracle: PassOracle): PassState
  {
    VisitAll(Start(store), kinds, sensorsOf, oracle)
  }

  /** Clears `registered` on every record named in `batch`; nothing else changes. */
  function Invalidate(store: Store, batch: seq<Registration>): (r: Store)
    ensures r.Keys == store.Keys
    ensures forall id :: id in store ==>
      r[id] == if id in BatchIds(batch) then store[id].(registered := false) else store[id]
    decreases |batch|
  {
    if batch == [] then store
    else
      var s := Invalidate(store, batch[..|batch| - 1]);
      var id := batch[|batch| - 1].uniqueId;
      if id in s then s[id := s[id].(registered := false)] else s
  }

  /** Pushes a non-empty batch; on failure every batched record is unregistered. */
  function Publish(st: PassState, accepted: bool): PassState
  {
    if |st.batch| == 0 then st
    else st.(trace := st.trace + [Push(st.batch, accepted)],
             store := if accepted then st.store else Invalidate(st.store, st.batch))
  }

  /** One whole `updateSensors` pass over the providers `kinds`. */
  function Pass(store: Store, kinds: seq<ProviderKind>,
                sensorsOf: ProviderKind -> seq<Descriptor>, oracle: PassOracle): PassState
  {
    Publish(Collect(store, kinds, sensorsOf, oracle), oracle.pushAccepted)
  }

  // ---------------------------------------------------------------------
  // Subsequences, for the order of the batch

  /** `a` can be obtained from `b` by deleting elements. */
  ghost predicate IsSubsequence(a: seq<string>, b: seq<string>)
    decreases |b|
  {
    if a == [] then true
    else if b == [] then false
    else if a[|a| - 1] == b[|b| - 1] then IsSubsequence(a[..|a| - 1], b[..|b| - 1])
    else IsSubsequence(a, b[..|b| - 1])
  }

  lemma {:induction false} SubsequenceExtend(a: seq<string>, b: seq<string>, x: string)
    requires IsSubsequence(a, b)
    ensures IsSubsequence(a, b + [x])
    decreases |b|, 1
  {
    var bx := b + [x];
    assert bx[..|bx| - 1] == b;
    if a != [] && a[|a| - 1] == x {
      SubsequenceDropLast(a, b);
    }
  }

  lemma {:induction false} SubsequenceDropLast(a: seq<string>, b: seq<string>)
    requires a != [] && IsSubsequence(a, b)
    ensures IsSubsequence(a[..|a| - 1], b)
    decreases |b|, 0
  {
    var a', b', y := a[..|a| - 1], b[..|b| - 1], b[|b| - 1];
    assert b' + [y] == b;
    if a[|a| - 1] != y {
      SubsequenceDropLast(a, b');
    }
    SubsequenceExtend(a', b', y);
  }

  lemma SubsequenceBoth(a: seq<string>, b: seq<string>, x: string)
    requires IsSubsequence(a, b)
    ensures IsSubsequence(a + [x], b + [x])
  {
    assert (a + [x])[..|a|] == a;
    assert (b + [x])[..|b|] == b;
  }

  // ---------------------------------------------------------------------
  // Batch composition

  /**
   * After the descriptors `ids` were reconciled: the batch lists, in the
   * order of `ids`, exactly those of them that are enabled and registered,
   * and carries no display names.
   */
  ghost predicate BatchInv(st: PassState, ids: seq<string>)
  {
    && IsSubsequence(BatchIds(st.batch), ids)
    && (forall i :: 0 <= i < |st.batch| ==> st.batch[i].name.None?)
    && (forall id :: id in BatchIds(st.batch) ==> id in ids && id in st.store && Reportable(st.store[id]))
    && (forall id :: id in ids && id in st.store && Reportable(st.store[id]) ==> id in BatchIds(st.batch))
  }

  lemma ReconcileSensorBatch(st: PassState, ids: seq<string>, d: Descriptor, accepted: nat -> bool)
    requires BatchInv(st, ids)
    ensures BatchInv(ReconcileSensor(st, d, accepted), ids + [d.id])
  {
    var r := ReconcileSensor(st, d, accepted);
    BatchIdsStep(st, d, accepted);
    if d.id in r.store && Reportable(r.store[d.id]) {
      SubsequenceBoth(BatchIds(st.batch), ids, d.id);
    } else {
      SubsequenceExtend(BatchIds(st.batch), ids, d.id);
    }
    BatchNamesStep(st, d, accepted);
    BatchSoundStep(st, ids, d, accepted);
    BatchCompleteStep(st, ids, d, accepted);
  }

  /** The ids of the batch after one descriptor; only that descriptor's record may change. */
  lemma BatchIdsStep(st: PassState, d: Descriptor, accepted: nat -> bool)
    ensures var r := ReconcileSensor(st, d, accepted);
      && BatchIds(r.batch) == BatchIds(st.batch) + (if d.id in r.store && Reportable(r.store[d.id]) then [d.id] else [])
      && r.store.Keys == st.store.Keys
      && (forall id :: id in st.store && id != d.id ==> r.store[id] == st.store[id])
      && (d.id in st.store && Reportable(st.store[d.id]) ==> Reportable(r.store[d.id]))
  {
    var r := ReconcileSensor(st, d, accepted);
    ReconcileSensorEffect(st, d, accepted);
    if d.id in r.store && Reportable(r.store[d.id]) {
      assert r.batch[..|r.batch| - 1] == st.batch;
    } else {
      assert r.batch == st.batch;
    }
  }

  lemma BatchNamesStep(st: PassState, d: Descriptor, accepted: nat -> bool)
    requires forall i :: 0 <= i < |st.batch| ==> st.batch[i].name.None?
    ensures var r := ReconcileSensor(st, d, accepted);
      forall i :: 0 <= i < |r.batch| ==> r.batch[i].name.None?
  {
    ReconcileSensorEffect(st, d, accepted);
  }

  lemma BatchSoundStep(st: PassState, ids: seq<string>, d: Descriptor, accepted: nat -> bool)
    requires forall id :: id in BatchIds(st.batch) ==> id in ids && id in st.store && Reportable(st.store[id])
    ensures var r := ReconcileSensor(st, d, accepted);
      forall id :: id in BatchIds(r.batch) ==> id in ids + [d.id] && id in r.store && Reportable(r.store[id])
  {
    BatchIdsStep(st, d, accepted);
  }

  lemma BatchCompleteStep(st: PassState, ids: seq<string>, d: Descriptor, accepted: nat -> bool)
    requires forall id :: id in ids && id in st.store && Reportable(st.store[id]) ==> id in BatchIds(st.batch)
    ensures var r := ReconcileSensor(st, d, accepted);
      forall id :: id in ids + [d.id] && id in r.store && Reportable(r.store[id]) ==> id in BatchIds(r.batch)
  {
    BatchIdsStep(st, d, accepted);
  }

  lemma {:induction false} ReconcileAllBatch(st: PassState, ids: seq<string>, ds: seq<Descriptor>, accepted: nat -> bool)
    requires BatchInv(st, ids)
    ensures BatchInv(ReconcileAll(st, ds, accepted), ids + Ids(ds))
    decreases |ds|
  {
    if ds == [] {
      assert ids + Ids(ds) == ids;
    } else {
      var ds' := ds[..|ds| - 1];
      ReconcileAllBatch(st, ids, ds', accepted);
      ReconcileSensorBatch(ReconcileAll(st, ds', accepted), ids + Ids(ds'), ds[|ds| - 1], accepted);
      assert ids + Ids(ds') + [ds[|ds| - 1].id] == ids + Ids(ds);
    }
  }

  lemma VisitProviderBatch(st: PassState, ids: seq<string>, kind: ProviderKind,
                           sensorsOf: ProviderKind -> seq<Descriptor>, oracle: PassOracle)
    requires BatchInv(st, ids)
    ensures BatchInv(VisitProvider(st, kind, sensorsOf, oracle), ids + Ids(sensorsOf(kind)))
  {
    var queried := st.(store := Absorb(st.store, oracle.update(kind).writes),
                       trace := st.trace + [RequestUpdate(kind)]);
    assert forall id :: id in queried.store && Reportable(queried.store[id]) ==> id in st.store && Reportable(st.store[id]);
    assert BatchInv(queried, ids);
    ReconcileAllBatch(queried, ids, sensorsOf(kind), oracle.registerAccepted);
  }

  lemma {:induction false} VisitAllBatch(st: PassState, ids: seq<string>, kinds: seq<ProviderKind>,
                                         sensorsOf: ProviderKind -> seq<Descriptor>, oracle: PassOracle)
    requires BatchInv(st, ids)
    ensures BatchInv(VisitAll(st, kinds, sensorsOf, oracle), ids + AllIds(kinds, sensorsOf))
    decreases |kinds|
  {
    if kinds == [] {
      assert ids + AllIds(kinds, sensorsOf) == ids;
    } else {
      var ks := kinds[..|kinds| - 1];
      var k := kinds[|kinds| - 1];
      var prev := VisitAll(st, ks, sensorsOf, oracle);
      var seen := ids + AllIds(ks, sensorsOf);
      VisitAllBatch(st, ids, ks, sensorsOf, oracle);
      VisitProviderBatch(prev, seen, k, sensorsOf, oracle);
      AllIdsSnoc(ids, kinds, sensorsOf);
    }
  }

  /**
   * The batch assembled by a pass holds exactly the descriptors that are
   * enabled and registered once the registration step is over, in
   * provider-then-descriptor order, without display names.
   */
  lemma PassBatchComposition(store: Store, kinds: seq<ProviderKind>,
                             sensorsOf: ProviderKind -> seq<Descriptor>, oracle: PassOracle)
    ensures var c := Collect(store, kinds, sensorsOf, oracle);
      && (forall id :: id in BatchIds(c.batch) <==>
            id in AllIds(kinds, sensorsOf) && id in c.store && Reportable(c.store[id]))
      && IsSubsequence(BatchIds(c.batch), AllIds(kinds, sensorsOf))
      && (forall i :: 0 <= i < |c.batch| ==> c.batch[i].name.None?)
  {
    VisitAllBatch(Start(store), [], kinds, sensorsOf, oracle);
    assert [] + AllIds(kinds, sensorsOf) == AllIds(kinds, sensorsOf);
  }

  // ---------------------------------------------------------------------
  // Registration discipline

  /**
   * Every `registerSensor` call so far was for a descriptor among `ids`
   * whose record was enabled, unregistered and typed at that moment (so
   * never for a record registered in `s0`), carried the display name, and
   * left the record registered when accepted; after an accepted
   * registration no further call is made for that id.
   */
  ghost predicate RegInv(s0: Store, st: PassState, ids: seq<string>)
  {
    && (forall id :: id in s0 ==>
          id in st.store && st.store[id].enabled == s0[id].enabled &&
          (s0[id].registered ==> st.store[id].registered))
    && (forall i :: 0 <= i < |st.trace| && st.trace[i].Register? ==>
          var reg := st.trace[i].reg;
          && reg.uniqueId in ids
          && reg.uniqueId in st.store && st.store[reg.uniqueId].enabled
          && reg.name.Some?
          && !IsBlank(reg.sensorType)
          && !(reg.uniqueId in s0 && s0[reg.uniqueId].registered)
          && (st.trace[i].accepted ==> st.store[reg.uniqueId].registered))
    && AtMostOnce(st.trace)
  }

  /** No `registerSensor` call follows an accepted one for the same id. */
  ghost predicate AtMostOnce(trace: seq<Event>)
  {
    forall i, j :: 0 <= i < j < |trace| && trace[i].Register? && trace[i].accepted && trace[j].Register? ==>
      trace[j].reg.uniqueId != trace[i].reg.uniqueId
  }

  lemma ReconcileSensorReg(s0: Store, st: PassState, ids: seq<string>, d: Descriptor, accepted: nat -> bool)
    requires RegInv(s0, st, ids)
    ensures RegInv(s0, ReconcileSensor(st, d, accepted), ids + [d.id])
  {
    var r := ReconcileSensor(st, d, accepted);
    var r1 := RegisterStep(st, d, accepted);
    assert r.store == r1.store && r.trace == r1.trace;
    if d.id in st.store && NeedsRegistration(st.store[d.id]) {
      var n := |st.trace|;
      assert r.trace[..n] == st.trace;
      forall i, j | 0 <= i < j < |r.trace| && r.trace[i].Register? && r.trace[i].accepted && r.trace[j].Register?
        ensures r.trace[j].reg.uniqueId != r.trace[i].reg.uniqueId
      {
        if j == n {
          assert st.trace[i].Register? && st.trace[i].accepted;
          assert st.store[st.trace[i].reg.uniqueId].registered;
        } else {
          assert st.trace[i] == r.trace[i] && st.trace[j] == r.trace[j];
        }
      }
      forall i | 0 <= i < |r.trace| && r.trace[i].Register?
        ensures var reg := r.trace[i].reg;
          && reg.uniqueId in ids + [d.id]
          && reg.uniqueId in r.store && r.store[reg.uniqueId].enabled
          && reg.name.Some?
          && !IsBlank(reg.sensorType)
          && !(reg.uniqueId in s0 && s0[reg.uniqueId].registered)
          && (r.trace[i].accepted ==> r.store[reg.uniqueId].registered)
      {
        if i < n {
          assert r.trace[i] == st.trace[i];
        }
      }
    }
  }

  lemma {:induction false} ReconcileAllReg(s0: Store, st: PassState, ids: seq<string>, ds: seq<Descriptor>, accepted: nat -> bool)
    requires RegInv(s0, st, ids)
    ensures RegInv(s0, ReconcileAll(st, ds, accepted), ids + Ids(ds))
    decreases |ds|
  {
    if ds == [] {
      assert ids + Ids(ds) == ids;
    } else {
      var ds' := ds[..|ds| - 1];
      ReconcileAllReg(s0, st, ids, ds', accepted);
      ReconcileSensorReg(s0, ReconcileAll(st, ds', accepted), ids + Ids(ds'), ds[|ds| - 1], accepted);
      assert ids + Ids(ds') + [ds[|ds| - 1].id] == ids + Ids(ds);
    }
  }

  lemma VisitProviderReg(s0: Store, st: PassState, ids: seq<string>, kind: ProviderKind,
                         sensorsOf: ProviderKind -> seq<Descriptor>, oracle: PassOracle)
    requires RegInv(s0, st, ids)
    ensures RegInv(s0, VisitProvider(st, kind, sensorsOf, oracle), ids + Ids(sensorsOf(kind)))
  {
    var queried := st.(store := Absorb(st.store, oracle.update(kind).writes),
                       trace := st.trace + [RequestUpdate(kind)]);
    forall i, j | 0 <= i < j < |queried.trace| && queried.trace[i].Register? && queried.trace[i].accepted && queried.trace[j].Register?
      ensures queried.trace[j].reg.uniqueId != queried.trace[i].reg.uniqueId
    {
      assert queried.trace[i] == st.trace[i] && queried.trace[j] == st.trace[j];
    }
    forall i | 0 <= i < |queried.trace| && queried.trace[i].Register?
      ensures var reg := queried.trace[i].reg;
        && reg.uniqueId in ids
        && reg.uniqueId in queried.store && queried.store[reg.uniqueId].enabled
        && reg.name.Some?
        && !IsBlank(reg.sensorType)
        && !(reg.uniqueId in s0 && s0[reg.uniqueId].registered)
        && (queried.trace[i].accepted ==> queried.store[reg.uniqueId].registered)
    {
      assert queried.trace[i] == st.trace[i];
    }
    assert RegInv(s0, queried, ids);
    ReconcileAllReg(s0, queried, ids, sensorsOf(kind), oracle.registerAccepted);
  }

  lemma {:induction false} VisitAllReg(s0: Store, st: PassState, ids: seq<string>, kinds: seq<ProviderKind>,
                                       sensorsOf: ProviderKind -> seq<Descriptor>, oracle: PassOracle)
    requires RegInv(s0, st, ids)
    ensures RegInv(s0, VisitAll(st, kinds, sensorsOf, oracle), ids + AllIds(kinds, sensorsOf))
    decreases |kinds|
  {
    if kinds == [] {
      assert ids + AllIds(kinds, sensorsOf) == ids;
    } else {
      var ks := kinds[..|kinds| - 1];
      var k := kinds[|kinds| - 1];
      VisitAllReg(s0, st, ids, ks, sensorsOf, oracle);
      VisitProviderReg(s0, VisitAll(st, ks, sensorsOf, oracle), ids + AllIds(ks, sensorsOf), k, sensorsOf, oracle);
      AllIdsSnoc(ids, kinds, sensorsOf);
    }
  }

  /**
   * Every `registerSensor` call in `trace` names one of `ids`, whose record
   * in `st` is enabled and was not registered in `s0`; the call carries the
   * display name and a non-blank type.
   */
  ghost predicate RegistrationsJustified(s0: Store, st: Store, trace: seq<Event>, ids: seq<string>)
  {
    forall i :: 0 <= i < |trace| && trace[i].Register? ==>
      var reg := trace[i].reg;
      && reg.uniqueId in ids
      && reg.uniqueId in st && st[reg.uniqueId].enabled
      && reg.name.Some?
      && !IsBlank(reg.sensorType)
      && !(reg.uniqueId in s0 && s0[reg.uniqueId].registered)
  }

  lemma CollectReg(store: Store, kinds: seq<ProviderKind>,
                   sensorsOf: ProviderKind -> seq<Descriptor>, oracle: PassOracle)
    ensures RegInv(store, Collect(store, kinds, sensorsOf, oracle), AllIds(kinds, sensorsOf))
  {
    assert RegInv(store, Start(store), []);
    VisitAllReg(store, Start(store), [], kinds, sensorsOf, oracle);
    assert [] + AllIds(kinds, sensorsOf) == AllIds(kinds, sensorsOf);
  }

  /**
   * In a pass, `registerSensor` is called only for a descriptor's record that
   * is enabled, has a non-blank type and was not registered when the pass
   * began; the call carries the display name; and once a registration for an
   * id is accepted, no further registration call is made for it in the pass.
   */
  lemma PassRegistrationDiscipline(store: Store, kinds: seq<ProviderKind>,
                                   sensorsOf: ProviderKind -> seq<Descriptor>, oracle: PassOracle)
    ensures RegistrationsJustified(store, Pass(store, kinds, sensorsOf, oracle).store,
                                   Pass(store, kinds, sensorsOf, oracle).trace, AllIds(kinds, sensorsOf))
    ensures AtMostOnce(Pass(store, kinds, sensorsOf, oracle).trace)
  {
    var c := Collect(store, kinds, sensorsOf, oracle);
    CollectReg(store, kinds, sensorsOf, oracle);
    PublishKeepsRegistrations(store, c, AllIds(kinds, sensorsOf), oracle.pushAccepted);
  }

  lemma PublishKeepsRegistrations(s0: Store, st: PassState, ids: seq<string>, accepted: bool)
    requires RegistrationsJustified(s0, st.store, st.trace, ids) && AtMostOnce(st.trace)
    ensures var p := Publish(st, accepted);
      RegistrationsJustified(s0, p.store, p.trace, ids) && AtMostOnce(p.trace)
  {
    if |st.batch| > 0 {
      var p := Publish(st, accepted);
      var n := |st.trace|;
      assert p.trace == st.trace + [Push(st.batch, accepted)];
      assert forall id :: id in st.store ==> id in p.store && p.store[id].enabled == st.store[id].enabled;
      forall i | 0 <= i < |p.trace| && p.trace[i].Register?
        ensures i < n && p.trace[i] == st.trace[i]
      {
      }
    }
  }

  // ---------------------------------------------------------------------
  // The pass up to, and at, one provider

  /** The state of a pass after the providers before `kinds[k]`. */
  function Before(store: Store, kinds: seq<ProviderKind>, k: nat,
                  sensorsOf: ProviderKind -> seq<Descriptor>, oracle: PassOracle): PassState
    requires k <= |kinds|
  {
    VisitAll(Start(store), kinds[..k], sensorsOf, oracle)
  }

  /** The table as the refresh of provider `kinds[k]` leaves it, before its descriptors are reconciled. */
  function Refreshed(store: Store, kinds: seq<ProviderKind>, k: nat,
                     sensorsOf: ProviderKind -> seq<Descriptor>, oracle: PassOracle): Store
    requires k < |kinds|
  {
    Absorb(Before(store, kinds, k, sensorsOf, oracle).store, oracle.update(kinds[k]).writes)
  }

  lemma SnocParts(a: seq<ProviderKind>, b: seq<ProviderKind>)
    requires b != []
    ensures (a + b)[..|a + b| - 1] == a + b[..|b| - 1] && (a + b)[|a + b| - 1] == b[|b| - 1]
  {
  }

  lemma SplitParts(kinds: seq<ProviderKind>, m: nat)
    requires m <= |kinds|
    ensures kinds[..m] + kinds[m..] == kinds
  {
  }

  /** Visiting `a + b` is visiting `a` and then `b`. */
  lemma {:induction false} VisitAllAppend(st: PassState, a: seq<ProviderKind>, b: seq<ProviderKind>,
                                          sensorsOf: ProviderKind -> seq<Descriptor>, oracle: PassOracle)
    ensures VisitAll(st, a + b, sensorsOf, oracle) == VisitAll(VisitAll(st, a, sensorsOf, oracle), b, sensorsOf, oracle)
    decreases |b|
  {
    if b == [] {
      assert a + b == a;
    } else {
      VisitAllAppend(st, a, b[..|b| - 1], sensorsOf, oracle);
      SnocParts(a, b);
    }
  }

  /** Visiting `kinds` is visiting `kinds[..m]` and then `kinds[m..]`. */
  lemma VisitAllSplit(st: PassState, kinds: seq<ProviderKind>, m: nat,
                      sensorsOf: ProviderKind -> seq<Descriptor>, oracle: PassOracle)
    requires m <= |kinds|
    ensures VisitAll(st, kinds, sensorsOf, oracle)
         == VisitAll(VisitAll(st, kinds[..m], sensorsOf, oracle), kinds[m..], sensorsOf, oracle)
  {
    VisitAllAppend(st, kinds[..m], kinds[m..], sensorsOf, oracle);
    SplitParts(kinds, m);
  }

  /** The providers up to and including `kinds[k]`. */
  lemma BeforeNext(store: Store, kinds: seq<ProviderKind>, k: nat,
                   sensorsOf: ProviderKind -> seq<Descriptor>, oracle: PassOracle)
    requires k < |kinds|
    ensures Before(store, kinds, k + 1, sensorsOf, oracle)
         == VisitProvider(Before(store, kinds, k, sensorsOf, oracle), kinds[k], sensorsOf, oracle)
  {
    assert kinds[..k + 1][..k] == kinds[..k];
    assert kinds[..k + 1][k] == kinds[k];
  }

  /** The state after provider `kinds[k]` is reconciling its descriptors over its refreshed table. */
  lemma BeforeNextReconciles(store: Store, kinds: seq<ProviderKind>, k: nat,
                             sensorsOf: ProviderKind -> seq<Descriptor>, oracle: PassOracle)
    requires k < |kinds|
    ensures var pre := Before(store, kinds, k, sensorsOf, oracle);
      Before(store, kinds, k + 1, sensorsOf, oracle)
        == ReconcileAll(pre.(store := Refreshed(store, kinds, k, sensorsOf, oracle),
                             trace := pre.trace + [RequestUpdate(kinds[k])]),
                        sensorsOf(kinds[k]), oracle.registerAccepted)
    ensures Collect(store, kinds, sensorsOf, oracle)
         == VisitAll(Before(store, kinds, k + 1, sensorsOf, oracle), kinds[k + 1..], sensorsOf, oracle)
  {
    BeforeNext(store, kinds, k, sensorsOf, oracle);
    VisitAllSplit(Start(store), kinds, k + 1, sensorsOf, oracle);
  }

  lemma {:induction false} IdsHas(ds: seq<Descriptor>, d: Descriptor)
    requires d in ds
    ensures d.id in Ids(ds)
    decreases |ds|
  {
    if ds[|ds| - 1] != d {
      assert d in ds[..|ds| - 1];
      IdsHas(ds[..|ds| - 1], d);
    }
  }

  // ---------------------------------------------------------------------
  // Every record that needs registration gets its call

  /** Some `registerSensor` call in `trace` is for `id`. */
  ghost predicate Requested(trace: seq<Event>, id: string)
  {
    exists i :: 0 <= i < |trace| && trace[i].Register? && trace[i].reg.uniqueId == id
  }

  lemma RequestedExtends(t: seq<Event>, u: seq<Event>, id: string)
    requires t <= u && Requested(t, id)
    ensures Requested(u, id)
  {
    var i :| 0 <= i < |t| && t[i].Register? && t[i].reg.uniqueId == id;
    assert u[i] == t[i];
  }

  /**
   * Measured from the table `s0`: only `registered` flags have changed; a
   * record became registered only through a `registerSensor` call; and if
   * it needed registration in `s0` and one of `ids` names it, a call for it
   * has been made.
   */
  ghost predicate AttemptInv(s0: Store, st: PassState, ids: seq<string>)
  {
    && (forall id :: id in s0 ==>
          id in st.store && st.store[id] == s0[id].(registered := st.store[id].registered))
    && (forall id :: id in s0 && id in st.store && st.store[id].registered && !s0[id].registered ==>
          Requested(st.trace, id))
    && (forall id :: id in ids && id in s0 && NeedsRegistration(s0[id]) ==>
          Requested(st.trace, id))
  }

  lemma ReconcileSensorAttempt(s0: Store, st: PassState, ids: seq<string>, d: Descriptor, accepted: nat -> bool)
    requires AttemptInv(s0, st, ids)
    ensures AttemptInv(s0, ReconcileSensor(st, d, accepted), ids + [d.id])
  {
    var r := ReconcileSensor(st, d, accepted);
    ReconcileSensorEffect(st, d, accepted);
    ReconcileSensorStep(st, d, accepted);
    var needs := d.id in st.store && NeedsRegistration(st.store[d.id]);
    if needs {
      assert r.trace[|st.trace|].reg.uniqueId == d.id;
      assert Requested(r.trace, d.id);
    }
    forall id | Requested(st.trace, id)
      ensures Requested(r.trace, id)
    {
      RequestedExtends(st.trace, r.trace, id);
    }
    forall id | id in s0 && id in r.store && r.store[id].registered && !s0[id].registered
      ensures Requested(r.trace, id)
    {
      if !st.store[id].registered {
        assert needs && id == d.id;
      }
    }
    forall id | id in ids + [d.id] && id in s0 && NeedsRegistration(s0[id])
      ensures Requested(r.trace, id)
    {
      if id !in ids {
        assert id == d.id;
        if !st.store[id].registered {
          assert needs;
        }
      }
    }
  }

  lemma {:induction false} ReconcileAllAttempt(s0: Store, st: PassState, ids: seq<string>,
                                               ds: seq<Descriptor>, accepted: nat -> bool)
    requires AttemptInv(s0, st, ids)
    ensures AttemptInv(s0, ReconcileAll(st, ds, accepted), ids + Ids(ds))
    decreases |ds|
  {
    if ds == [] {
      assert ids + Ids(ds) == ids;
    } else {
      var ds' := ds[..|ds| - 1];
      ReconcileAllAttempt(s0, st, ids, ds', accepted);
      ReconcileSensorAttempt(s0, ReconcileAll(st, ds', accepted), ids + Ids(ds'), ds[|ds| - 1], accepted);
      assert ids + Ids(ds') + [ds[|ds| - 1].id] == ids + Ids(ds);
    }
  }

  /**
   * A pass makes a `registerSensor` call for every sensor that provider
   * `kinds[k]` declares and whose record, as that provider's refresh leaves
   * it, is enabled, unregistered and typed.
   */
  lemma PassRegistersNeedingSensors(store: Store, kinds: seq<ProviderKind>, k: nat, d: Descriptor,
                                    sensorsOf: ProviderKind -> seq<Descriptor>, oracle: PassOracle)
    requires k < |kinds| && d in sensorsOf(kinds[k])
    ensures var q := Refreshed(store, kinds, k, sensorsOf, oracle);
      d.id in q && NeedsRegistration(q[d.id]) ==> Requested(Pass(store, kinds, sensorsOf, oracle).trace, d.id)
  {
    var pre := Before(store, kinds, k, sensorsOf, oracle);
    var q := Refreshed(store, kinds, k, sensorsOf, oracle);
    var queried := pre.(store := q, trace := pre.trace + [RequestUpdate(kinds[k])]);
    var ds := sensorsOf(kinds[k]);
    assert AttemptInv(q, queried, []);
    ReconcileAllAttempt(q, queried, [], ds, oracle.registerAccepted);
    IdsHas(ds, d);
    assert [] + Ids(ds) == Ids(ds);
    BeforeNextReconciles(store, kinds, k, sensorsOf, oracle);
    var v := Before(store, kinds, k + 1, sensorsOf, oracle);
    var c := Collect(store, kinds, sensorsOf, oracle);
    var p := Pass(store, kinds, sensorsOf, oracle);
    assert v.trace <= c.trace;
    assert c.trace <= p.trace;
    if d.id in q && NeedsRegistration(q[d.id]) {
      RequestedExtends(v.trace, c.trace, d.id);
      RequestedExtends(c.trace, p.trace, d.id);
    }
  }

  /** A sensor whose registration was accepted during a pass is in that pass's batch. */
  lemma AcceptedRegistrationsBatched(store: Store, kinds: seq<ProviderKind>,
                                     sensorsOf: ProviderKind -> seq<Descriptor>, oracle: PassOracle)
    ensures var c := Collect(store, kinds, sensorsOf, oracle);
      forall i :: 0 <= i < |c.trace| && c.trace[i].Register? && c.trace[i].accepted ==>
        c.trace[i].reg.uniqueId in BatchIds(c.batch)
  {
    CollectReg(store, kinds, sensorsOf, oracle);
    PassBatchComposition(store, kinds, sensorsOf, oracle);
  }

  // ---------------------------------------------------------------------
  // A record becomes registered only through an accepted call

  /** Some accepted `registerSensor` call in `trace` is for `id`. */
  ghost predicate AcceptedFor(trace: seq<Event>, id: string)
  {
    exists i :: 0 <= i < |trace| && trace[i].Register? && trace[i].accepted && trace[i].reg.uniqueId == id
  }

  lemma AcceptedExtends(t: seq<Event>, u: seq<Event>, id: string)
    requires t <= u && AcceptedFor(t, id)
    ensures AcceptedFor(u, id)
  {
    var i :| 0 <= i < |t| && t[i].Register? && t[i].accepted && t[i].reg.uniqueId == id;
    assert u[i] == t[i];
  }

  /** Every record registered in `st` that was absent or unregistered in `s0` had an accepted call. */
  ghost predicate RaisedByAcceptance(s0: Store, st: PassState)
  {
    forall id :: id in st.store && st.store[id].registered && !(id in s0 && s0[id].registered) ==>
      AcceptedFor(st.trace, id)
  }

  lemma ReconcileSensorRaised(s0: Store, st: PassState, d: Descriptor, accepted: nat -> bool)
    requires RaisedByAcceptance(s0, st)
    ensures RaisedByAcceptance(s0, ReconcileSensor(st, d, accepted))
  {
    var r := ReconcileSensor(st, d, accepted);
    ReconcileSensorEffect(st, d, accepted);
    forall id | id in r.store && r.store[id].registered && !(id in s0 && s0[id].registered)
      ensures AcceptedFor(r.trace, id)
    {
      if id in st.store && st.store[id].registered {
        AcceptedExtends(st.trace, r.trace, id);
      } else {
        assert r.trace[|st.trace|].Register? && r.trace[|st.trace|].accepted;
        assert r.trace[|st.trace|].reg.uniqueId == id;
      }
    }
  }

  lemma {:induction false} ReconcileAllRaised(s0: Store, st: PassState, ds: seq<Descriptor>, accepted: nat -> bool)
    requires RaisedByAcceptance(s0, st)
    ensures RaisedByAcceptance(s0, ReconcileAll(st, ds, accepted))
    decreases |ds|
  {
    if ds != [] {
      ReconcileAllRaised(s0, st, ds[..|ds| - 1], accepted);
      ReconcileSensorRaised(s0, ReconcileAll(st, ds[..|ds| - 1], accepted), ds[|ds| - 1], accepted);
    }
  }

  lemma VisitProviderRaised(s0: Store, st: PassState, kind: ProviderKind,
                            sensorsOf: ProviderKind -> seq<Descriptor>, oracle: PassOracle)
    requires RaisedByAcceptance(s0, st)
    ensures RaisedByAcceptance(s0, VisitProvider(st, kind, sensorsOf, oracle))
  {
    var queried := st.(store := Absorb(st.store, oracle.update(kind).writes),
                       trace := st.trace + [RequestUpdate(kind)]);
    forall id | id in queried.store && queried.store[id].registered && !(id in s0 && s0[id].registered)
      ensures AcceptedFor(queried.trace, id)
    {
      assert id in st.store && st.store[id].registered;
      AcceptedExtends(st.trace, queried.trace, id);
    }
    ReconcileAllRaised(s0, queried, sensorsOf(kind), oracle.registerAccepted);
  }

  lemma {:induction false} VisitAllRaised(s0: Store, st: PassState, kinds: seq<ProviderKind>,
                                          sensorsOf: ProviderKind -> seq<Descriptor>, oracle: PassOracle)
    requires RaisedByAcceptance(s0, st)
    ensures RaisedByAcceptance(s0, VisitAll(st, kinds, sensorsOf, oracle))
    decreases |kinds|
  {
    if kinds != [] {
      VisitAllRaised(s0, st, kinds[..|kinds| - 1], sensorsOf, oracle);
      VisitProviderRaised(s0, VisitAll(st, kinds[..|kinds| - 1], sensorsOf, oracle), kinds[|kinds| - 1],
                          sensorsOf, oracle);
    }
  }

  /**
   * A pass marks a record registered only after an accepted `registerSensor`
   * call for it: every record registered when the pass ends that was absent
   * or unregistered when it began had such a call during the pass. A refused
   * call leaves the record unregistered.
   */
  lemma RegisteredOnlyByAcceptedCall(store: Store, kinds: seq<ProviderKind>,
                                     sensorsOf: ProviderKind -> seq<Descriptor>, oracle: PassOracle)
    ensures var p := Pass(store, kinds, sensorsOf, oracle);
      forall id :: id in p.store && p.store[id].registered && !(id in store && store[id].registered) ==>
        AcceptedFor(p.trace, id)
  {
    var c := Collect(store, kinds, sensorsOf, oracle);
    VisitAllRaised(store, Start(store), kinds, sensorsOf, oracle);
    PublishRaisesNothing(store, c, oracle.pushAccepted);
  }

  /** The push lowers `registered` flags at most, so it keeps `RaisedByAcceptance`. */
  lemma PublishRaisesNothing(s0: Store, st: PassState, accepted: bool)
    requires RaisedByAcceptance(s0, st)
    ensures RaisedByAcceptance(s0, Publish(st, accepted))
  {
    var p := Publish(st, accepted);
    assert st.trace <= p.trace;
    forall id | id in p.store && p.store[id].registered && !(id in s0 && s0[id].registered)
      ensures AcceptedFor(p.trace, id)
    {
      assert id in st.store && st.store[id].registered;
      AcceptedExtends(st.trace, p.trace, id);
    }
  }

  // ---------------------------------------------------------------------
  // What the batch entries carry

  /**
   * Every batch entry from index `lo` on whose record no provider has
   * rewritten since (its id is not in `written`) carries that record's
   * current data.
   */
  ghost predicate EntriesCurrent(st: PassState, lo: nat, written: set<string>)
  {
    forall i :: lo <= i < |st.batch| && st.batch[i].uniqueId !in written ==>
      st.batch[i].uniqueId in st.store &&
      st.batch[i] == ToRegistration(st.batch[i].uniqueId, st.store[st.batch[i].uniqueId], None)
  }

  lemma VisitProviderEntries(st: PassState, lo: nat, written: set<string>, kind: ProviderKind,
                             sensorsOf: ProviderKind -> seq<Descriptor>, oracle: PassOracle)
    requires EntriesCurrent(st, lo, written)
    ensures EntriesCurrent(VisitProvider(st, kind, sensorsOf, oracle), lo, written + oracle.update(kind).writes.Keys)
  {
    var w := oracle.update(kind).writes;
    var queried := st.(store := Absorb(st.store, w), trace := st.trace + [RequestUpdate(kind)]);
    var r := ReconcileAll(queried, sensorsOf(kind), oracle.registerAccepted);
    forall i | lo <= i < |r.batch| && r.batch[i].uniqueId !in written + w.Keys
      ensures r.batch[i].uniqueId in r.store &&
              r.batch[i] == ToRegistration(r.batch[i].uniqueId, r.store[r.batch[i].uniqueId], None)
    {
      var id := r.batch[i].uniqueId;
      if i < |st.batch| {
        assert r.batch[i] == st.batch[i];
        assert queried.store[id] == st.store[id];
        assert r.store[id] == queried.store[id].(registered := r.store[id].registered);
      }
    }
  }

  lemma {:induction false} VisitAllEntries(st: PassState, lo: nat, written: set<string>, kinds: seq<ProviderKind>,
                                           sensorsOf: ProviderKind -> seq<Descriptor>, oracle: PassOracle)
    requires EntriesCurrent(st, lo, written)
    ensures EntriesCurrent(VisitAll(st, kinds, sensorsOf, oracle), lo, written + WrittenIds(kinds, oracle.update))
    decreases |kinds|
  {
    if kinds == [] {
      assert written + WrittenIds(kinds, oracle.update) == written;
    } else {
      var ks := kinds[..|kinds| - 1];
      var k := kinds[|kinds| - 1];
      VisitAllEntries(st, lo, written, ks, sensorsOf, oracle);
      VisitProviderEntries(VisitAll(st, ks, sensorsOf, oracle), lo, written + WrittenIds(ks, oracle.update),
                           k, sensorsOf, oracle);
      assert written + WrittenIds(ks, oracle.update) + oracle.update(k).writes.Keys
          == written + WrittenIds(kinds, oracle.update);
    }
  }

  /**
   * The batch entries that provider `kinds[k]` adds (the indices from
   * `|Before(k).batch|` up to `|Before(k + 1).batch|`) carry the id, state,
   * type, unit and attributes of their records as that provider's refresh
   * left them. An entry whose id no later provider writes also carries its
   * record's data as it stands when the batch is pushed.
   */
  lemma PassBatchEntries(store: Store, kinds: seq<ProviderKind>, k: nat,
                         sensorsOf: ProviderKind -> seq<Descriptor>, oracle: PassOracle)
    requires k < |kinds|
    ensures var lo := |Before(store, kinds, k, sensorsOf, oracle).batch|;
      var hi := |Before(store, kinds, k + 1, sensorsOf, oracle).batch|;
      var q := Refreshed(store, kinds, k, sensorsOf, oracle);
      var c := Collect(store, kinds, sensorsOf, oracle);
      && lo <= hi <= |c.batch|
      && (forall i :: lo <= i < hi ==>
            c.batch[i].uniqueId in q &&
            c.batch[i] == ToRegistration(c.batch[i].uniqueId, q[c.batch[i].uniqueId], None))
      && (forall i :: lo <= i < hi && c.batch[i].uniqueId !in WrittenIds(kinds[k + 1..], oracle.update) ==>
            c.batch[i].uniqueId in c.store &&
            c.batch[i] == ToRegistration(c.batch[i].uniqueId, c.store[c.batch[i].uniqueId], None))
  {
    var pre := Before(store, kinds, k, sensorsOf, oracle);
    var q := Refreshed(store, kinds, k, sensorsOf, oracle);
    var v := Before(store, kinds, k + 1, sensorsOf, oracle);
    var c := Collect(store, kinds, sensorsOf, oracle);
    BeforeNextReconciles(store, kinds, k, sensorsOf, oracle);
    assert pre.batch <= v.batch <= c.batch;
    forall i | |pre.batch| <= i < |v.batch|
      ensures c.batch[i].uniqueId in q &&
              c.batch[i] == ToRegistration(c.batch[i].uniqueId, q[c.batch[i].uniqueId], None)
    {
      var id := v.batch[i].uniqueId;
      assert c.batch[i] == v.batch[i];
      assert v.store[id] == q[id].(registered := v.store[id].registered);
    }
    assert EntriesCurrent(v, |pre.batch|, {});
    VisitAllEntries(v, |pre.batch|, {}, kinds[k + 1..], sensorsOf, oracle);
    assert {} + WrittenIds(kinds[k + 1..], oracle.update) == WrittenIds(kinds[k + 1..], oracle.update);
  }

  // ---------------------------------------------------------------------
  // What the registration calls carry

  /**
   * Every event of `st.trace` from index `lo` on is a `registerSensor` call
   * for a descriptor of `ds`, carrying the descriptor's display name and its
   * record's data in `q`.
   */
  ghost predicate CallsCarry(q: Store, ds: seq<Descriptor>, st: PassState, lo: nat)
  {
    forall i :: lo <= i < |st.trace| ==>
      st.trace[i].Register? &&
      exists d :: d in ds && d.id in q && st.trace[i].reg == ToRegistration(d.id, q[d.id], Some(d.displayName))
  }

  lemma ReconcileSensorCalls(q: Store, ds: seq<Descriptor>, st: PassState, lo: nat, d: Descriptor, accepted: nat -> bool)
    requires CallsCarry(q, ds, st, lo) && OnlyRegisters(q, st.store) && d in ds
    ensures CallsCarry(q, ds, ReconcileSensor(st, d, accepted), lo)
  {
    var r := ReconcileSensor(st, d, accepted);
    ReconcileSensorEffect(st, d, accepted);
    forall i | lo <= i < |r.trace|
      ensures r.trace[i].Register? &&
        exists e :: e in ds && e.id in q && r.trace[i].reg == ToRegistration(e.id, q[e.id], Some(e.displayName))
    {
      if i < |st.trace| {
        assert r.trace[i] == st.trace[i];
      } else {
        assert st.store[d.id] == q[d.id].(registered := st.store[d.id].registered);
        assert r.trace[i].reg == ToRegistration(d.id, q[d.id], Some(d.displayName));
      }
    }
  }

  lemma {:induction false} ReconcileAllCalls(q: Store, all: seq<Descriptor>, st: PassState,
                                             ds: seq<Descriptor>, accepted: nat -> bool)
    requires OnlyRegisters(q, st.store)
    requires forall d :: d in ds ==> d in all
    ensures CallsCarry(q, all, ReconcileAll(st, ds, accepted), |st.trace|)
    decreases |ds|
  {
    if ds != [] {
      var ds' := ds[..|ds| - 1];
      var prev := ReconcileAll(st, ds', accepted);
      assert forall d :: d in ds' ==> d in ds;
      ReconcileAllCalls(q, all, st, ds', accepted);
      OnlyRegistersTransitive(q, st.store, prev.store);
      ReconcileSensorCalls(q, all, prev, |st.trace|, ds[|ds| - 1], accepted);
    }
  }

  /**
   * The events of a pass that follow the query of provider `kinds[k]`, up to
   * the query of the next provider, are `registerSensor` calls. Each carries
   * the display name of one of that provider's descriptors and the id,
   * state, type, unit and attributes of its record as the provider's
   * refresh left it.
   */
  lemma PassRegistrationContents(store: Store, kinds: seq<ProviderKind>, k: nat,
                                 sensorsOf: ProviderKind -> seq<Descriptor>, oracle: PassOracle)
    requires k < |kinds|
    ensures var lo := |Before(store, kinds, k, sensorsOf, oracle).trace|;
      var hi := |Before(store, kinds, k + 1, sensorsOf, oracle).trace|;
      var q := Refreshed(store, kinds, k, sensorsOf, oracle);
      var p := Pass(store, kinds, sensorsOf, oracle);
      && lo < hi <= |p.trace|
      && p.trace[lo] == RequestUpdate(kinds[k])
      && (forall i :: lo < i < hi ==>
            p.trace[i].Register? &&
            exists d :: d in sensorsOf(kinds[k]) && d.id in q &&
              p.trace[i].reg == ToRegistration(d.id, q[d.id], Some(d.displayName)))
  {
    var pre := Before(store, kinds, k, sensorsOf, oracle);
    var q := Refreshed(store, kinds, k, sensorsOf, oracle);
    var queried := pre.(store := q, trace := pre.trace + [RequestUpdate(kinds[k])]);
    var v := Before(store, kinds, k + 1, sensorsOf, oracle);
    var c := Collect(store, kinds, sensorsOf, oracle);
    var p := Pass(store, kinds, sensorsOf, oracle);
    BeforeNextReconciles(store, kinds, k, sensorsOf, oracle);
    ReconcileAllCalls(q, sensorsOf(kinds[k]), queried, sensorsOf(kinds[k]), oracle.registerAccepted);
    assert queried.trace <= v.trace <= c.trace <= p.trace;
    assert p.trace[|pre.trace|] == queried.trace[|pre.trace|];
    forall i | |pre.trace| < i < |v.trace|
      ensures p.trace[i].Register? &&
        exists d :: d in sensorsOf(kinds[k]) && d.id in q &&
          p.trace[i].reg == ToRegistration(d.id, q[d.id], Some(d.displayName))
    {
      assert p.trace[i] == v.trace[i];
    }
  }

  // ---------------------------------------------------------------------
  // Provider queries

  lemma {:induction false} ScheduleOfRemoteCalls(s: seq<Event>)
    requires forall i :: 0 <= i < |s| ==> s[i].Register? || s[i].Push?
    ensures Schedule(s) == []
    decreases |s|
  {
    if s != [] {
      ScheduleOfRemoteCalls(s[..|s| - 1]);
    }
  }

  lemma VisitProviderSchedule(v: PassState, k: ProviderKind,
                              sensorsOf: ProviderKind -> seq<Descriptor>, oracle: PassOracle)
    ensures Schedule(VisitProvider(v, k, sensorsOf, oracle).trace) == Schedule(v.trace) + [RequestUpdate(k)]
  {
    var queried := v.(store := Absorb(v.store, oracle.update(k).writes),
                      trace := v.trace + [RequestUpdate(k)]);
    var r := ReconcileAll(queried, sensorsOf(k), oracle.registerAccepted);
    var tail := r.trace[|queried.trace|..];
    assert r.trace == queried.trace + tail;
    ScheduleOfRemoteCalls(tail);
    ScheduleAppend(queried.trace, tail);
    ScheduleAppend(v.trace, [RequestUpdate(k)]);
    assert Schedule([RequestUpdate(k)]) == [RequestUpdate(k)] by {
      assert [RequestUpdate(k)][..0] == [];
    }
  }

  lemma {:induction false} VisitAllSchedule(st: PassState, kinds: seq<ProviderKind>,
                                            sensorsOf: ProviderKind -> seq<Descriptor>, oracle: PassOracle)
    ensures Schedule(VisitAll(st, kinds, sensorsOf, oracle).trace) == Schedule(st.trace) + RequestsOf(kinds)
    decreases |kinds|
  {
    if kinds == [] {
      assert Schedule(st.trace) + RequestsOf(kinds) == Schedule(st.trace);
    } else {
      var ks := kinds[..|kinds| - 1];
      var k := kinds[|kinds| - 1];
      var v := VisitAll(st, ks, sensorsOf, oracle);
      VisitAllSchedule(st, ks, sensorsOf, oracle);
      VisitProviderSchedule(v, k, sensorsOf, oracle);
      var head, rest := Schedule(st.trace), RequestsOf(ks);
      assert head + rest + [RequestUpdate(k)] == head + (rest + [RequestUpdate(k)]);
    }
  }

  /** A pass queries every provider exactly once, in the given order, and nothing is delayed. */
  lemma PassQueriesEveryProvider(store: Store, kinds: seq<ProviderKind>,
                                 sensorsOf: ProviderKind -> seq<Descriptor>, oracle: PassOracle)
    ensures Schedule(Pass(store, kinds, sensorsOf, oracle).trace) == RequestsOf(kinds)
  {
    var c := Collect(store, kinds, sensorsOf, oracle);
    VisitAllSchedule(Start(store), kinds, sensorsOf, oracle);
    var q := RequestsOf(kinds);
    assert Schedule(Start(store).trace) + q == q;
    PublishSchedule(c, oracle.pushAccepted);
  }

  /** The push adds no provider query or delay. */
  lemma PublishSchedule(st: PassState, accepted: bool)
    ensures Schedule(Publish(st, accepted).trace) == Schedule(st.trace)
  {
    if |st.batch| > 0 {
      var push := [Push(st.batch, accepted)];
      ScheduleAppend(st.trace, push);
      ScheduleOfRemoteCalls(push);
    }
  }

  // ---------------------------------------------------------------------
  // Failure isolation

  /** The same answers, except for which providers threw. */
  function WithThrows(oracle: PassOracle, threw: ProviderKind -> bool): (o: PassOracle)
    ensures o.registerAccepted == oracle.registerAccepted && o.pushAccepted == oracle.pushAccepted
    ensures forall k :: o.update(k).writes == oracle.update(k).writes && o.update(k).threw == threw(k)
  {
    oracle.(update := k => ProviderOutcome(oracle.update(k).writes, threw(k)))
  }

  lemma {:induction false} VisitAllIgnoresThrows(st: PassState, kinds: seq<ProviderKind>,
                                                 sensorsOf: ProviderKind -> seq<Descriptor>,
                                                 oracle: PassOracle, threw: ProviderKind -> bool)
    ensures VisitAll(st, kinds, sensorsOf, WithThrows(oracle, threw)) == VisitAll(st, kinds, sensorsOf, oracle)
    decreases |kinds|
  {
    if kinds != [] {
      VisitAllIgnoresThrows(st, kinds[..|kinds| - 1], sensorsOf, oracle, threw);
    }
  }

  /**
   * A provider whose `requestSensorUpdate` throws does not stop the pass:
   * the pass does the same with or without the exceptions. No function of
   * the pass reads the `threw` flag, so this holds by construction of the
   * model; the substance of failure isolation lies in the lemmas that hold
   * for every oracle, thrown exceptions included: every provider is still
   * queried (PassQueriesEveryProvider) and every declared sensor is still
   * considered for the batch (PassBatchComposition).
   */
  lemma ProviderExceptionsIgnored(store: Store, kinds: seq<ProviderKind>,
                                  sensorsOf: ProviderKind -> seq<Descriptor>,
                                  oracle: PassOracle, threw: ProviderKind -> bool)
    ensures Pass(store, kinds, sensorsOf, WithThrows(oracle, threw)) == Pass(store, kinds, sensorsOf, oracle)
  {
    VisitAllIgnoresThrows(Start(store), kinds, sensorsOf, oracle, threw);
  }

  // ---------------------------------------------------------------------
  // The push and its recovery

  /**
   * An empty batch is not pushed and nothing is written after the loop; a
   * non-empty one is pushed once; an accepted push writes nothing; a failed
   * push clears `registered` on exactly the batched records.
   */
  lemma PushOutcome(store: Store, kinds: seq<ProviderKind>,
                    sensorsOf: ProviderKind -> seq<Descriptor>, oracle: PassOracle)
    ensures var c := Collect(store, kinds, sensorsOf, oracle);
      var p := Pass(store, kinds, sensorsOf, oracle);
      && (|c.batch| == 0 ==> p == c)
      && (|c.batch| > 0 ==> p.trace == c.trace + [Push(c.batch, oracle.pushAccepted)])
      && (oracle.pushAccepted ==> p.store == c.store)
      && p.store.Keys == c.store.Keys
      && (!oracle.pushAccepted ==> forall id :: id in c.store ==>
            p.store[id] == if id in BatchIds(c.batch) then c.store[id].(registered := false) else c.store[id])
  {
  }

  /**
   * After a failed push no descriptor's record is both enabled and
   * registered, so each must be registered again before it is batched.
   */
  lemma FailedPushForcesReregistration(store: Store, kinds: seq<ProviderKind>,
                                       sensorsOf: ProviderKind -> seq<Descriptor>, oracle: PassOracle)
    requires !oracle.pushAccepted
    ensures var p := Pass(store, kinds, sensorsOf, oracle);
      forall id :: id in AllIds(kinds, sensorsOf) && id in p.store ==> !Reportable(p.store[id])
  {
    PassBatchComposition(store, kinds, sensorsOf, oracle);
    PushOutcome(store, kinds, sensorsOf, oracle);
  }

  /**
   * The engine creates and deletes no records (only provider writes add
   * ids) and never changes `enabled`.
   */
  lemma PassFrame(store: Store, kinds: seq<ProviderKind>,
                  sensorsOf: ProviderKind -> seq<Descriptor>, oracle: PassOracle)
    ensures var p := Pass(store, kinds, sensorsOf, oracle);
      && p.store.Keys == store.Keys + WrittenIds(kinds, oracle.update)
      && forall id :: id in store ==> p.store[id].enabled == store[id].enabled
  {
    var c := Collect(store, kinds, sensorsOf, oracle);
    PublishFrame(c, oracle.pushAccepted);
  }

  /** The push deletes and creates no row and changes no `enabled` flag. */
  lemma PublishFrame(st: PassState, accepted: bool)
    ensures var p := Publish(st, accepted);
      && p.store.Keys == st.store.Keys
      && forall id :: id in st.store ==> p.store[id].enabled == st.store[id].enabled
  {
  }

  // ---------------------------------------------------------------------
  // A pass over disabled sensors

  lemma {:induction false} ReconcileAllDisabled(st: PassState, ds: seq<Descriptor>, accepted: nat -> bool)
    requires forall id :: id in st.store ==> !st.store[id].enabled
    ensures ReconcileAll(st, ds, accepted) == st
    decreases |ds|
  {
    if ds != [] {
      ReconcileAllDisabled(st, ds[..|ds| - 1], accepted);
    }
  }

  lemma VisitProviderDisabled(v: PassState, k: ProviderKind,
                              sensorsOf: ProviderKind -> seq<Descriptor>, oracle: PassOracle)
    requires forall id :: id in v.store ==> !v.store[id].enabled
    requires forall id :: id in oracle.update(k).writes ==> !oracle.update(k).writes[id].enabled
    ensures VisitProvider(v, k, sensorsOf, oracle)
         == v.(store := Absorb(v.store, oracle.update(k).writes), trace := v.trace + [RequestUpdate(k)])
    ensures forall id :: id in VisitProvider(v, k, sensorsOf, oracle).store ==>
      !VisitProvider(v, k, sensorsOf, oracle).store[id].enabled
  {
    var queried := v.(store := Absorb(v.store, oracle.update(k).writes),
                      trace := v.trace + [RequestUpdate(k)]);
    assert forall id :: id in queried.store ==> !queried.store[id].enabled;
    ReconcileAllDisabled(queried, sensorsOf(k), oracle.registerAccepted);
  }

  lemma {:induction false} VisitAllDisabled(store: Store, kinds: seq<ProviderKind>,
                                            sensorsOf: ProviderKind -> seq<Descriptor>, oracle: PassOracle)
    requires forall id :: id in store ==> !store[id].enabled
    requires forall k, id :: id in oracle.update(k).writes ==> !oracle.update(k).writes[id].enabled
    ensures Collect(store, kinds, sensorsOf, oracle)
         == PassState(AbsorbAll(store, kinds, oracle.update), RequestsOf(kinds), [], 0)
    ensures forall id :: id in Collect(store, kinds, sensorsOf, oracle).store ==>
      !Collect(store, kinds, sensorsOf, oracle).store[id].enabled
    decreases |kinds|
  {
    if kinds == [] {
      assert RequestsOf(kinds) == [];
    } else {
      var ks := kinds[..|kinds| - 1];
      var k := kinds[|kinds| - 1];
      VisitAllDisabled(store, ks, sensorsOf, oracle);
      VisitProviderDisabled(Collect(store, ks, sensorsOf, oracle), k, sensorsOf, oracle);
      assert RequestsOf(kinds) == RequestsOf(ks) + [RequestUpdate(k)];
    }
  }

  /**
   * When every record is disabled and providers create no enabled record, a
   * pass makes no registration call and no push, and changes the store only
   * by the providers' own writes.
   */
  lemma DisabledPassIsQuiet(store: Store, kinds: seq<ProviderKind>,
                            sensorsOf: ProviderKind -> seq<Descriptor>, oracle: PassOracle)
    requires forall id :: id in store ==> !store[id].enabled
    requires forall k, id :: id in oracle.update(k).writes ==> !oracle.update(k).writes[id].enabled
    ensures var p := Pass(store, kinds, sensorsOf, oracle);
      p.trace == RequestsOf(kinds) && p.store == AbsorbAll(store, kinds, oracle.update)
  {
    VisitAllDisabled(store, kinds, sensorsOf, oracle);
  }

  /** Providers that write nothing leave the store as it is. */
  lemma {:induction false} AbsorbNothing(store: Store, kinds: seq<ProviderKind>, update: ProviderKind -> ProviderOutcome)
    requires forall k :: k in kinds ==> update(k).writes == map[]
    ensures AbsorbAll(store, kinds, update) == store
    decreases |kinds|
  {
    if kinds != [] {
      var ks := kinds[..|kinds| - 1];
      assert forall k :: k in ks ==> k in kinds;
      AbsorbNothing(store, ks, update);
      assert Absorb(store, map[]) == store;
    }
  }
}
